=== FILE: README.md ===
# Presentation assistant — a verified model of its core

The application turns an uploaded document into a slide deck:

1. It reads a .txt, .md, .pdf or .docx file into text.
2. It asks an LLM (only Gemini is wired up) for an outline.
3. The user reviews the outline and picks a template.
4. The deck is edited on a canvas: slides are added, deleted and dragged into a new order, text is edited in place, and a text field is refined through a streamed rewrite.
5. The deck is played full screen, or exported to PPTX or PDF.

This project models that core in Dafny, one module per source file.

Pure computations become functions and lemmas:
- the slide patches;
- the two-column split;
- outline normalisation;
- the file-type dispatch;
- the PPTX plan;
- the playback steps.

Anything the source drives by updating state in place becomes a class with `modifies` frames:
- the application shell (`App.Shell`);
- the editor state (`Editor.EditorState`);
- the outline draft;
- the playback index;
- the drag gate;
- the refine dialog.

The loops of the source become methods with loop invariants, each proved against a specification function:
- the PDF page loop;
- the refine stream;
- the two export loops.

Modules:

| module | file | models |
|---|---|---|
| `Wrappers` | wrappers.dfy | `Option`, `Result` |
| `Types` | types.dfy | types.ts, plus the TRANSITIONS and LLM_CONFIG tables of constants.ts |
| `Text` | text.dfy | the JavaScript string operations the core uses: number rendering, `trim`, `includes`, `join`, `replace`, `toLowerCase`, `endsWith` |
| `Edits` | edits.dfy | copy-and-assign and `filter`-by-index on arrays |
| `SlidePreview` | slide_preview.dfy | components/SlidePreview.tsx |
| `Editor` | editor.dfy | components/Editor.tsx |
| `OutlineEditor` | outline_editor.dfy | components/OutlineEditor.tsx |
| `PresentationView` | presentation_view.dfy | components/PresentationView.tsx |
| `Sidebar` | sidebar.dfy | components/Sidebar.tsx |
| `RefineModal` | refine_modal.dfy | components/RefineModal.tsx |
| `AiService` | ai_service.dfy | services/aiService.ts |
| `ExportService` | export_service.dfy | services/exportService.ts |
| `FileParser` | file_parser.dfy | services/fileParserService.ts |
| `App` | app.dfy | App.tsx |

Whatever the outside world supplies becomes a parameter. That covers:
- what the LLM answered, as `OutlineResponse`, `RefineResponse` and `ImageResponse`;
- what the FileReader, pdf.js and mammoth delivered, as `FileInput`;
- whether an export library failed to load, as `failure`;
- the clock, as `now` and `newId`.

The model then states what the code does with every possible answer.

Behaviour of the code a reader may not expect, which the model keeps:
- **Unknown layouts are kept.** The outline normaliser keeps a non-empty layout name it does not know (`Types.SlideLayout.Unrecognized`). It does not fall back to TITLE_CONTENT. The canvas and the PPTX exporter then treat such a slide as TITLE_CONTENT.
- **One null element fails the whole outline.** A `null` element in the outline array makes the whole generation fail with the generic message.
- **The final refined text skips the callback.** The refine call returns the trimmed text; the streaming callback only ever receives untrimmed snapshots. The dialog shows the returned text once the call settles.

## Model

| member | source | states |
|---|---|---|
| Types.ParseLayout | types.ts:11 | reading a layout name back gives a layout whose name is that string; it is `Unrecognized` exactly when the name is not one of the five |
| Types.ParseLayoutName | types.ts:11 | naming a well-formed layout and parsing the name returns the same layout |
| Types.FindTransition | components/Editor.tsx:128 | a found row is in the table and has the requested id; no row is found only when no row has that id |
| Types.TransitionRow | constants.ts:74-79 | every transition has a row of TRANSITIONS carrying its id |
| Types.TransitionClass | components/Editor.tsx:128 | the class lookup with its '' fallback: the matching row's class, or '' when no row matches (stated by `Types.TransitionClassTable`) |
| Types.TransitionClassTable | constants.ts:74-79 | each transition's class is its own row's className; an absent transition has class '' |
| Types.Merge | components/Editor.tsx:35 | object spread: a field the patch supplies is overwritten, every other field keeps its value |
| Types.ParseProvider | App.tsx:15-18 | a recognised provider string is exactly that provider's key; an unrecognised one names no provider |
| Types.Models | constants.ts:81-98 | every provider lists at least one model |
| Text.NatToStringInjective | services/aiService.ts:75 | distinct numbers render as distinct decimal strings |
| Text.Trim | services/aiService.ts:110 | `trim` yields a middle slice whose cut-off ends are all white space and which neither starts nor ends with white space |
| Text.TrimIdempotent | services/aiService.ts:110 | trimming trimmed text changes nothing |
| Text.Join | services/fileParserService.ts:32 | joining no items gives '' and one item gives that item |
| Text.JoinAvoids | services/fileParserService.ts:32 | a join of items and separator that avoid a character avoids it too |
| Text.ReplaceSpaces | services/exportService.ts:55 | each space becomes '_', every other character is kept, and the length is unchanged |
| Text.ToLowerCase | services/fileParserService.ts:8 | the lower-cased name has the same length, and each character is lowered on its own |
| Edits.AssignAt | components/Editor.tsx:73-74 | copy-and-assign changes at most the assigned element; a negative index changes nothing |
| Edits.RemoveAt | components/Editor.tsx:107 | `filter((_, i) => i !== index)` as the filter runs: every element whose position is not the index is kept, in order (what that amounts to is stated by `Edits.RemoveAtSplice`) |
| Edits.RemoveAtSplice | components/Editor.tsx:107 | filtering out an index in range is the splice that removes exactly that element; any other index keeps everything |
| Edits.RemoveAtIndex | components/SlidePreview.tsx:88 | removing an element in range leaves one fewer, shifts the later ones down and removes exactly that element from the multiset |
| SlidePreview.TitleChange | components/SlidePreview.tsx:73-75 | the patch changes only the title |
| SlidePreview.ContentChange | components/SlidePreview.tsx:77-81 | the patch changes only the addressed content entry, keeping the number of entries |
| SlidePreview.ContentAdd | components/SlidePreview.tsx:83-85 | the patch appends "New bullet point." after every existing entry and changes nothing else |
| SlidePreview.ContentDelete | components/SlidePreview.tsx:87-90 | an index in range removes exactly that entry in order; any other index leaves the content as it was |
| SlidePreview.RemoveImage | components/SlidePreview.tsx:314 | the patch only removes the image reference |
| SlidePreview.MiddleIndex | components/SlidePreview.tsx:143 | the split point is ceil(n/2) |
| SlidePreview.Columns | components/SlidePreview.tsx:143-145 | the two columns concatenate to the content, and the left one holds ceil(n/2) entries |
| SlidePreview.AbsoluteIndex | components/SlidePreview.tsx:185-192 | a left-column position in range names an entry of the left half, a right-column one an entry of the right half |
| SlidePreview.AbsoluteIndexSound | components/SlidePreview.tsx:185-192 | a right-column item at local index k edits content entry middleIndex + k, which is the entry it shows |
| SlidePreview.AbsoluteIndexInjective | components/SlidePreview.tsx:158-192 | no two column positions edit the same content entry |
| SlidePreview.BulletFields | components/SlidePreview.tsx:249-259 | the k-th bullet of a list shows item k and writes to entry offset + k |
| SlidePreview.ColumnsAsOneList | components/SlidePreview.tsx:142-210 | the two bulleted columns list the same fields, in the same order, as one flat list |
| SlidePreview.LayoutFields | components/SlidePreview.tsx:93-283 | the title field comes first on every layout, except a BLANK slide with an empty title, which shows no field |
| SlidePreview.TwoColumnSameFieldsAsFlat | components/SlidePreview.tsx:142-282 | TWO_COLUMN offers exactly the fields of TITLE_CONTENT |
| SlidePreview.FieldsShowStoredText | components/SlidePreview.tsx:93-283 | every field is given the stored text of its target as its value |
| SlidePreview.TitleLayoutsShowFirstEntryOnly | components/SlidePreview.tsx:95-141 | TITLE_SLIDE and SECTION_HEADER show the title and `content[0]`, the latter only when non-empty; BLANK shows only a non-empty title |
| SlidePreview.EditChangesOnlyItsTarget | components/SlidePreview.tsx:73-81 | editing a field sets its own target's text and no other stored text |
| SlidePreview.EditPatch | components/SlidePreview.tsx:73-81 | an edit's patch touches no id, layout, image or transition; a title edit sets only the title; a bullet edit replaces the content by a list of the same length |
| SlidePreview.RefineFor | components/SlidePreview.tsx:102 | a title's refine request carries content index -1, a bullet's its absolute index, with the text on show |
| SlidePreview.FieldControls | components/SlidePreview.tsx:93-283 | a list of fields draws an edit and a refine control for every field target it holds and a delete control for every deletable bullet in it, and no others |
| SlidePreview.Controls | components/SlidePreview.tsx:93-335 | read-only (exporting or presenting) exactly when no control is drawn; otherwise remove-image is drawn exactly when the slide has an image and add-image exactly when it has none; an edit and a refine control exactly for the targets of the layout's fields; a delete control exactly for the layout's deletable bullets; add-bullet exactly on the bulleted layouts |
| ExportService.FileName | services/exportService.ts:55 | the file name is the title with spaces turned to '_' followed by the extension |
| ExportService.FileNamesHaveNoSpaces | services/exportService.ts:106 | neither saved name contains a space |
| ExportService.SlidePlan | services/exportService.ts:74-103 | every PPTX slide starts with its title box |
| ExportService.SlidePlanText | services/exportService.ts:69-104 | bulleted layouts and BLANK export the title then every content entry in order; the title layouts export the title and at most a non-empty `content[0]` |
| ExportService.TwoColumnPlanSplit | services/exportService.ts:89-96 | the TWO_COLUMN boxes are the canvas's ceil(n/2) split of the content |
| ExportService.LibraryNotFound | services/exportService.ts:18-22 | the message `getLibrary` rejects with when a library never appears |
| ExportService.ExportToPptx | services/exportService.ts:62-111 | a failure is reported with the PPTX prefix; otherwise one slide plan per deck slide, in deck order, saved under the title-derived name |
| ExportService.ExportToPdf | services/exportService.ts:28-59 | a failure is reported with the PDF prefix; otherwise slide element k is drawn alone on page k, and there is one blank page when there is no element |
| Editor.Move | components/Editor.tsx:42-44 | the two splices keep the deck's length (position by position in `Editor.MoveAt`) |
| Editor.SelectionAfterMove | components/Editor.tsx:47-53 | the selection lands on the drop index exactly when the dragged slide was selected; any other selection moves by at most one |
| Editor.MoveAt | components/Editor.tsx:42-44 | each position after the two splices holds the element the splice arithmetic names |
| Editor.MoveTracksSelection | components/Editor.tsx:46-53 | the selection rule points at the same slide after the reorder, whichever slide was selected |
| Editor.MovePlacesDragged | components/Editor.tsx:43-44 | the dragged slide lands at the drop index |
| Editor.MovePermutes | components/Editor.tsx:42-44 | a reorder keeps the same slides, each as often as before |
| Editor.MoveKeepsOrder | components/Editor.tsx:42-44 | apart from the dragged slide, the slides keep their relative order |
| Editor.MoveUndo | components/Editor.tsx:40-57 | dragging the slide back restores the deck and the selection |
| Editor.ReorderKeepsSelectedSlide | components/Editor.tsx:40-57 | selected slide kept, permutation, and relative order kept, for every reorder |
| Editor.NewSlide | components/Editor.tsx:95-100 | the added slide carries the given id, TITLE_CONTENT and one bullet, with no image and no transition |
| Editor.EditorState.constructor | components/Editor.tsx:24-28 | the editor opens on the given deck, slide 0 selected, with no dialog and not presenting |
| Editor.EditorState.UpdateSlide | components/Editor.tsx:32-38 | only the addressed slide changes, by the patch |
| Editor.EditorState.Reorder | components/Editor.tsx:40-57 | the deck is the splice result; the selection follows its slide; same multiset; others keep their order |
| Editor.EditorState.SetTitle | components/Editor.tsx:60-62 | only the deck title changes |
| Editor.EditorState.RefineClick | components/Editor.tsx:64-66 | the refine request is remembered |
| Editor.EditorState.RefineClose | components/Editor.tsx:177 | closing drops the request and leaves the deck alone |
| Editor.EditorState.RefineConfirm | components/Editor.tsx:68-80 | with a request, its content entry takes the text and the request clears; a title request (-1) changes no slide; without a request nothing changes |
| Editor.EditorState.RefineConfirmIntended | components/Editor.tsx:68-80 | the confirm as evidently intended: a title request writes the slide's title, a bullet request its entry; the request clears |
| Editor.TitleRefineIsLost | components/Editor.tsx:73-75 | as written, confirming a title refine writes content element -1, which leaves the slide and its title unchanged |
| Editor.EditorState.OpenImageGenerator | components/Editor.tsx:82-84 | the image dialog opens for the given slide |
| Editor.EditorState.ImageGenerated | components/Editor.tsx:86-91 | the image goes to the slide captured at open, not the current selection, and the dialog resets |
| Editor.EditorState.CloseImageGenerator | components/Editor.tsx:189 | closing resets the dialog and leaves the deck alone |
| Editor.EditorState.AddSlide | components/Editor.tsx:94-103 | one default slide is appended and selected |
| Editor.EditorState.DeleteSlide | components/Editor.tsx:105-109 | refused on decks of at most one slide; otherwise the index is filtered out and the selection moves back by one, clamped at 0; a non-empty deck never becomes empty |
| Editor.EditorState.SetTransition | components/Editor.tsx:122-124 | only the selected slide's transition changes |
| Editor.EditorState.SelectSlide | components/Editor.tsx:147 | the clicked slide becomes the selection |
| Editor.EditorState.SetPresentationMode | components/Editor.tsx:141 | playback mode is switched as asked |
| Editor.EditorState.SelectedTransitionClass | components/Editor.tsx:127-128 | the class is the TRANSITIONS row of the selected slide's transition, or '' without one |
| Editor.EditorState.Export | components/Editor.tsx:112-120 | PDF without the render container does nothing; PDF draws slide k alone on page k under the title-derived name; PPTX saves one `SlidePlan` per slide, in order, under the title-derived name; a failure is reported with its exporter's prefix |
| Editor.EditorState.Dispatch | components/Editor.tsx:144-153 | each sidebar command has exactly its handler's effect: select sets the selection and keeps the deck; delete, reorder and add are `DeleteSlide`, `Reorder` and `AddSlide` |
| Editor.EditorState.ClickThumbnail | components/Sidebar.tsx:83 | a thumbnail click selects that slide and leaves the deck unchanged |
| Editor.EditorState.DeleteThumbnail | components/Sidebar.tsx:93-97 | the delete button removes exactly that slide (refused on a deck of at most one), and the selection follows the delete rule whichever slide was clicked |
| Editor.EditorState.DropOnThumbnail | components/Sidebar.tsx:64-69 | a drop carries out the reorder the drag gate issues, with the selected slide kept; a drop without a drag or onto the dragged thumbnail changes nothing |
| Editor.EditorState.RefineCancel | components/RefineModal.tsx:67 | Cancel drops the request and leaves the deck unchanged, whatever the dialog holds |
| Editor.EditorState.RefineReplace | components/RefineModal.tsx:70-72 | an enabled Replace writes the text on show into the requested entry and clears the request; a disabled one changes nothing |
| Editor.ExportCopyControlsAsWritten | components/Editor.tsx:210-219 | as written, every hidden copy the PDF captures draws controls: the add-image button on a slide without image, the add-bullet link on bulleted layouts |
| Editor.NewSlideExportCopyShowsButtons | components/Editor.tsx:210-219 | a freshly added slide's PDF copy carries the add-image button and the add-bullet link |
| Editor.ExportCopyControls | components/Editor.tsx:210-219 | rendered exporting, the copies draw no control |
| OutlineEditor.WithTitle | components/OutlineEditor.tsx:14-20 | only the addressed slide's title changes |
| OutlineEditor.WithContent | components/OutlineEditor.tsx:22-30 | only the addressed bullet changes; the length and the other slides are kept |
| OutlineEditor.TitleAndContentEditsCommute | components/OutlineEditor.tsx:14-30 | a title edit and a content edit give the same draft in either order |
| OutlineEditor.LastTitleEditWins | components/OutlineEditor.tsx:14-20 | of two edits to one title, the later wins |
| OutlineEditor.TitleEditOfSameValue | components/OutlineEditor.tsx:14-20 | writing a title back unchanged leaves the draft as it was |
| OutlineEditor.OutlineState.constructor | components/OutlineEditor.tsx:12 | the draft starts as the given outline |
| OutlineEditor.OutlineState.SetTitle | components/OutlineEditor.tsx:14-20 | the draft becomes `WithTitle` of the old one |
| OutlineEditor.OutlineState.SetContent | components/OutlineEditor.tsx:22-30 | the draft becomes `WithContent` of the old one |
| OutlineEditor.OutlineState.Confirm | components/OutlineEditor.tsx:61 | confirm hands over the draft exactly; `App.Shell.ConfirmDraft` shows the shell then keeps that draft |
| PresentationView.NextIndex | components/PresentationView.tsx:17 | `Math.min(i + 1, n - 1)`: at most both arguments and equal to one of them |
| PresentationView.PrevIndex | components/PresentationView.tsx:19 | `Math.max(i - 1, 0)`: at least both arguments and equal to one of them |
| PresentationView.StepsStayOnDeck | components/PresentationView.tsx:15-23 | on a non-empty deck both steps stay on a slide |
| PresentationView.StepsAreNoOpsExactlyAtTheEnds | components/PresentationView.tsx:17-19 | Next stays put exactly on the last slide and otherwise moves one on; Previous stays put exactly on the first |
| PresentationView.StepsUndo | components/PresentationView.tsx:17-19 | Previous then Next, and Next then Previous, return to the slide away from the ends |
| PresentationView.Playback.PrevDisabled | components/PresentationView.tsx:61 | Previous is disabled exactly on the first slide |
| PresentationView.Playback.NextDisabled | components/PresentationView.tsx:69 | Next is disabled exactly on the last slide |
| PresentationView.Playback.constructor | components/PresentationView.tsx:13 | playback starts on slide 0 |
| PresentationView.Playback.HandleKey | components/PresentationView.tsx:15-23 | ArrowRight and Space step forward, ArrowLeft steps back, only Escape exits, other keys change nothing |
| PresentationView.Playback.PrevButton | components/PresentationView.tsx:59-66 | disabled on the first slide; otherwise one slide back |
| PresentationView.Playback.NextButton | components/PresentationView.tsx:67-74 | disabled on the last slide; otherwise one slide on |
| PresentationView.PlaybackIsReadOnly | components/PresentationView.tsx:40-50 | the slide on show offers no control |
| PresentationView.CurrentTransitionClass | components/PresentationView.tsx:32-33 | the class is the TRANSITIONS row of the slide on show, or '' |
| Sidebar.DropCommands | components/Sidebar.tsx:64-69 | no reorder without a drag or onto the dragged thumbnail itself; otherwise exactly that reorder |
| Sidebar.DragGate.constructor | components/Sidebar.tsx:53 | no drag in progress at first |
| Sidebar.DragGate.DragStart | components/Sidebar.tsx:55-58 | the dragged index is remembered |
| Sidebar.DragGate.Drop | components/Sidebar.tsx:64-69 | issues `DropCommands`; the drag ends only when a reorder is issued |
| Sidebar.DragGate.DragEnd | components/Sidebar.tsx:82 | the drag always ends |
| Sidebar.Click | components/Sidebar.tsx:83 | a click issues only the select command for its thumbnail; `Editor.EditorState.ClickThumbnail` gives its effect |
| Sidebar.DeleteClick | components/Sidebar.tsx:93-97 | the delete button issues only the delete command and no select; `Editor.EditorState.DeleteThumbnail` gives its effect |
| RefineModal.ErrorText | components/RefineModal.tsx:37 | an absent or empty message falls back to "Failed to refine text."; the text is never empty |
| RefineModal.RefineDialog.constructor | components/RefineModal.tsx:16-18 | empty text, loading, no error |
| RefineModal.RefineDialog.Open | components/RefineModal.tsx:20-24 | the opening effect resets to empty text, loading, no error |
| RefineModal.RefineDialog.Chunk | components/RefineModal.tsx:26-29 | each snapshot replaces the preview and ends loading |
| RefineModal.RefineDialog.Settle | components/RefineModal.tsx:31-39 | a result overrides the preview; a failure shows its message; loading ends either way |
| RefineModal.RefineDialog.ReplaceEnabled | components/RefineModal.tsx:72 | Replace is disabled while loading or while an error is shown, and enabled when not loading and no error is shown |
| RefineModal.RefineDialog.Shown | components/RefineModal.tsx:58-61 | the preview is on show exactly when Replace is enabled, and it shows the refined text |
| RefineModal.RefineDialog.Replace | components/RefineModal.tsx:70-72 | Replace confirms exactly the text on show, and only when enabled |
| RefineModal.RefineDialog.Cancel | components/RefineModal.tsx:67 | Cancel confirms nothing and asks to close; `Editor.EditorState.RefineCancel` gives its effect |
| RefineModal.Run | components/RefineModal.tsx:20-39 | after a whole call, a result is on show and confirmable; a failure shows its message with Replace disabled |
| AiService.KeyMissing | services/aiService.ts:161 | `!aiConfig.apiKey`: no key, or the empty key (the same test at lines 180 and 198) |
| AiService.MissingKeyError | services/aiService.ts:162 | the missing-key message, naming the provider |
| AiService.NotImplementedError | services/aiService.ts:171 | the not-implemented message, naming the provider |
| AiService.Guard | services/aiService.ts:160-176 | a missing or empty key fails first, then every provider but Gemini fails as not implemented; only Gemini with a key proceeds |
| AiService.NormalizeSlide | services/aiService.ts:74-79 | falsy title, content and layout fall back; a non-empty layout name is kept as given; the id is `slide-<index>-<time>` |
| AiService.SlideId | services/aiService.ts:75 | every id starts with "slide-" (`AiService.SlideIdIndex` shows the index can be read back) |
| AiService.SlideIdIndex | services/aiService.ts:75 | equal ids come from equal indices, whatever the clock said |
| AiService.GeminiOutline | services/aiService.ts:67-84 | any failure, a non-array or a null element gives the one generic message; otherwise one normalised slide per element, in order |
| AiService.GenerateOutline | services/aiService.ts:160-177 | the guard's error, or the Gemini outline |
| AiService.OutlineIdsDistinct | services/aiService.ts:74-79 | the slides of one outline have pairwise distinct ids |
| AiService.UnknownLayoutPassesThrough | services/aiService.ts:78 | an element with an unknown layout name keeps that name |
| AiService.AccumulatedAsWritten | services/aiService.ts:105-108 | `accumulatedText += chunk.text` as written, a textless chunk appending "undefined" (see `AiService.TextlessChunkAppendsUndefined`) |
| AiService.ChunkText | services/aiService.ts:107 | the corrected contribution of one chunk: its text, or nothing when it has none |
| AiService.Accumulated | services/aiService.ts:105-108 | the corrected accumulation, in which a textless chunk adds nothing (see `AiService.AccumulatedAppend`) |
| AiService.TextlessChunkAppendsUndefined | services/aiService.ts:107 | as written, "Hello" followed by a chunk without text accumulates to "Helloundefined" |
| AiService.AccumulatedAppend | services/aiService.ts:105-109 | the accumulation of a split stream is the accumulation of the first part followed by that of the second |
| AiService.AccumulatedAgreesWhenEveryChunkHasText | services/aiService.ts:107 | when every chunk has text, the corrected and the as-written accumulations agree |
| AiService.RefineStream | services/aiService.ts:100-110 | snapshot k is the text of the first k+1 chunks; each snapshot is a prefix of every later one; the result is the trimmed whole text, or the generic failure when the stream throws |
| AiService.RefineText | services/aiService.ts:87-122 | the guard, then the stream with a callback or the single request without one; a request failure or a missing text gives the generic failure; the streamed text is the corrected accumulation |
| AiService.ImageErrorMessage | services/aiService.ts:143-154 | a message containing "SAFETY" gets the safety text, other non-empty messages are quoted, and anything else gets the generic text |
| AiService.GeminiImage | services/aiService.ts:124-155 | non-empty bytes give a PNG data URI; no image gives the mapped no-image error; a thrown error is mapped |
| AiService.NoImageIsQuoted | services/aiService.ts:141-150 | the no-image error reaches the user quoted, not as the safety text |
| AiService.ImageResultIsDataUri | services/aiService.ts:136-138 | a successful image is the PNG data-URI prefix followed by the returned bytes |
| AiService.GenerateImage | services/aiService.ts:197-213 | the guard's error, or the Gemini image result |
| FileParser.Classify | services/fileParserService.ts:8-45 | the lower-cased name or the MIME type picks text, then PDF, then DOCX; the first match wins; otherwise unsupported |
| FileParser.ToLowerCaseIdempotent | services/fileParserService.ts:8 | lower-casing twice is lower-casing once |
| FileParser.ClassifyIgnoresCase | services/fileParserService.ts:8 | names equal up to case take the same branch |
| FileParser.UpperCaseDocIsDocx | services/fileParserService.ts:45 | "A.DOC" goes to the DOCX reader |
| FileParser.TextNameWinsOverPdfType | services/fileParserService.ts:11-22 | a .txt name is read as text even with a PDF MIME type |
| FileParser.PagesText | services/fileParserService.ts:29-33 | each page's items joined by spaces, then a line break, page after page (see `FileParser.PagesTextAppend` and `FileParser.ExtractPdfText`) |
| FileParser.PagesTextAppend | services/fileParserService.ts:29-33 | the PDF text of consecutive page runs is the concatenation of their texts |
| FileParser.OneLinePerPage | services/fileParserService.ts:32 | without line breaks in the items, the PDF text has one line break per page |
| FileParser.ExtractPdfText | services/fileParserService.ts:28-34 | the page loop yields `PagesText` of the pages |
| FileParser.Parse | services/fileParserService.ts:6-66 | each branch and read outcome settles with the document text or its own error message |
| FileParser.ParseFile | services/fileParserService.ts:6-66 | running the reader branches, page loop included, settles exactly as `Parse` |
| App.StoredProviderName | App.tsx:15 | the stored provider string with 'gemini' for an absent or empty one; never empty |
| App.StoredPairValid | App.tsx:18-20 | the stored provider is a key of LLM_CONFIG and the stored model is one of its models |
| App.InitialAiConfig | App.tsx:14-31 | the model is one of the provider's; a valid stored pair is kept; otherwise Gemini and its first model are used and written back |
| App.InitialAiConfigSettles | App.tsx:14-31 | rerunning the check on the storage it left changes nothing |
| App.Shell.constructor | App.tsx:35-47 | the welcome screen with the checked settings and the persisted keys |
| App.Shell.AiConfig | App.tsx:97-101 | the current provider and model, and that provider's key if any |
| App.Shell.ProviderChange | App.tsx:75-81 | the provider's first model is chosen, both are persisted, and the error is cleared |
| App.Shell.ModelChange | App.tsx:83-86 | the model is taken and persisted as given; the welcome screen offers only the provider's models |
| App.Shell.ApiKeysChange | App.tsx:88-95 | only that provider's key changes, in memory and in storage; only the missing-key message is cleared |
| App.Shell.ToggleLanguage | App.tsx:213 | the language flips |
| App.Shell.ProcessFile | App.tsx:103-122 | without a key, only the missing-key message; otherwise PARSING, then GENERATING_OUTLINE, then reviewing the outline, or back to WELCOME with the first failure's message |
| App.Shell.OutlineConfirm | App.tsx:124-127 | the confirmed outline is kept and template choice begins |
| App.Shell.ConfirmDraft | App.tsx:175 | the outline screen's confirm: the shell keeps exactly the edited draft and template choice begins |
| App.Shell.BackToOutline | App.tsx:129-131 | back to reviewing the outline |
| App.Shell.TemplateSelect | App.tsx:133-143 | with an outline, a deck "My AI Presentation" of its slides in the template opens in the editor; without one nothing happens |
| App.Shell.NewPresentation | App.tsx:145-150 | back to the welcome screen with no deck, outline or error |

## Left out

- Rendering, CSS classes, template styling and the theme are not modelled. The theme covers the stored preference and the dark-mode effect in App.tsx. A template keeps only its id and name.
- `SlidePreview.EditPatch` takes the edited text as given. In the source that text is the field's `innerText` after its value was rendered as HTML (SlidePreview.tsx:57-60), sent on every blur, including one with no typing. A stored text holding markup, entities or line breaks is therefore rewritten by merely focusing and leaving its field; HTML rendering is not modelled.
- ImageGenerationModal.tsx is not part of this model. The editor's side of that dialog is modelled (`OpenImageGenerator`, `ImageGenerated`, `CloseImageGenerator`).
- Header.tsx, WelcomeScreen.tsx and TemplateSelector.tsx are not modelled. They only render and forward to the handlers that are.
- TransitionSelector.tsx and services/geminiService.ts are not modelled. No file of the source imports either of them.
- `Editor.EditorState.SetTransition` models `handleTransitionChange`, which no UI in this source can reach. Editor.tsx:167 passes it to SlidePreview as `onSelectTransition`, a prop that SlidePreview neither declares nor reads.
- Network calls, prompts and the LLM SDK become response parameters. The prompts, the response schema and the document text sent never influence what the code does with an answer.
- `getLibrary`'s 100 ms polling and 30 s timeout are not modelled. A library that never loads is the `failure` parameter of the exporters, whose message is `ExportService.LibraryNotFound`.
- PDF rasterising is not modelled (html2canvas, PNG data, coordinates). `ExportService.ExportToPdf` records which slide element is drawn on which page.
- PPTX box positions and sizes are not modelled. Fonts, bold, bullets, centring and colour are kept.
- `ExportService.ExportToPdf` counts the `.aspect-video` elements of the hidden container as a number. It does not derive them from the deck.
- `Date.now()` becomes parameters: `newId` for added slides, and `now(k)` for outline element k.
- The FileReader, pdf.js and mammoth are inputs: the read outcome, the page item strings and the extracted text. Their own parsing is not modelled.
- `AiService.RefineText` is built on the corrected stream (`AiService.RefineStream`): a chunk without text adds nothing, where services/aiService.ts:107 appends "undefined" (see "## Findings").
- `AiService.RefineText` requires the reply to match the call: a streamed reply answers the streaming request, a whole reply the single request.
- `App.Shell.ModelChange` persists any model string it is given. The source re-runs `getInitialAiConfig` on every render; after a model the provider does not list, that would write the Gemini default back to storage while the shell keeps its provider and model. The welcome screen only offers listed models, so this is not modelled.
- `PresentationView.Playback` accepts an empty deck. An outline answer `[]` yields an empty deck, and playing it renders SlidePreview with no slide, which throws in the source; rendering is not modelled.
- `Text.ToLowerCase` lowers ASCII letters only. The file-name suffix tests compare against ASCII text.
- `App.Shell` keeps the persisted key map as a map field. It does not model its JSON encoding under "llm_api_keys", or keys inherited from `Object.prototype` when looking up LLM_CONFIG.
- `App.Shell.ProcessFile`: App.tsx:119 falls back to 'An unknown error occurred.' for a thrown non-Error. Every failure of the modelled services is an Error with a message, so that branch is unreachable here.
- `App.Shell.ProcessFile` does not model a second upload started while the first is still in flight.
- `Editor.EditorState.UpdateSlide`, `Editor.EditorState.RefineConfirm` and `Editor.EditorState.ImageGenerated` require the index they write to be in range. Writing past the end of a JavaScript array would grow it with holes; the canvas only ever passes indices of existing slides and bullets.
- `Editor.EditorState.Reorder` requires both indices in range, as the sidebar only issues indices of thumbnails.
- `RefineModal.RefineDialog.Chunk` models the handler's stale `isLoading` capture by always clearing the flag, which is what the captured `true` does.
- React's batching and re-render timing are not modelled: state updates apply in program order. A refine result that arrives after its dialog closed finds no open request and changes nothing, as `Editor.DiscardOnClose` shows.

## Findings

| source | as written | input that shows it | evidently intended | confidence | as-written member | corrected member |
|---|---|---|---|---|---|---|
| components/Editor.tsx:210-219 | the hidden copies the PDF export captures are rendered without `isExporting`, so each is an editable canvas with its always-visible add-image button and add-bullet link | any slide without an image, e.g. a freshly added one: its PDF page shows the add-image button and "+ Add bullet point" | the copies are rendered with `isExporting` and show no control | medium, not executed | Editor.NewSlideExportCopyShowsButtons | Editor.ExportCopyControls |
| components/Editor.tsx:73-75 | the title's refine request carries content index -1 (SlidePreview.tsx:102), and the confirm writes `newContent[-1]`, which creates no array element | refine a slide title and press Replace: the dialog closes and the title is unchanged | the refined text replaces the title | high, not executed | Editor.TitleRefineIsLost | Editor.EditorState.RefineConfirmIntended |
| services/aiService.ts:107 | every streamed chunk's `text` is appended; a chunk whose text is undefined appends the word "undefined" | a stream of a chunk "Hello" followed by a chunk with no text (e.g. a final chunk with only metadata) accumulates to "Helloundefined" | a chunk without text adds nothing | medium, not executed | AiService.TextlessChunkAppendsUndefined | AiService.RefineStream |

=== FILE: ai_service.dfy ===
/** The AI dispatch layer (services/aiService.ts). The three dispatchers guard on the key and the
    provider; only Gemini is implemented. What the remote service answered is an input to each
    call, so the model covers what the code does with any answer: outline normalisation, the
    streamed refine accumulation, and the image result and error mapping. */
module AiService {
  import opened Wrappers
  import opened Types
  import opened Text

  // ---- dispatch guards ----

  function MissingKeyError(p: LlmProvider): string {
    "API Key for " + ProviderId(p) + " is missing."
  }

  function NotImplementedError(p: LlmProvider): string {
    ProviderId(p) + " integration is not implemented yet."
  }

  /** `!aiConfig.apiKey`: no key, or the empty key. */
  predicate KeyMissing(config: AiConfig) {
    config.apiKey.None? || config.apiKey.value == ""
  }

  /** The check every dispatcher makes before any provider call: a missing key fails first,
      then every provider but Gemini fails as not implemented; `None` lets the Gemini call go
      ahead. */
  function Guard(config: AiConfig): (r: Option<string>)
    ensures KeyMissing(config) ==> r == Some(MissingKeyError(config.provider))
    ensures !KeyMissing(config) && config.provider != Gemini ==> r == Some(NotImplementedError(config.provider))
    ensures r.None? <==> !KeyMissing(config) && config.provider == Gemini
  {
    if KeyMissing(config) then Some(MissingKeyError(config.provider))
    else if config.provider != Gemini then Some(NotImplementedError(config.provider))
    else None
  }

  // ---- outline ----

  const OUTLINE_FAILED := "Failed to generate presentation outline. The AI model might be busy or an error occurred."

  /** One element of the parsed JSON array. A field is `None` when it is absent; `slide.title`
      on a null element throws. */
  datatype RawSlide =
    | NullItem
    | Descriptor(title: Option<string>, content: Option<seq<string>>, layout: Option<string>)

  /** What the outline request gave back. */
  datatype OutlineResponse =
    | OutlineCallFailed         // the request threw
    | NotJson                   // JSON.parse threw on the response text
    | NotArray                  // parsed, but not an array
    | Items(items: seq<RawSlide>)

  /** `slide-${index}-${Date.now()}` */
  function SlideId(index: nat, time: nat): (id: string)
    ensures |id| > 6 && id[..6] == "slide-"
  {
    "slide-" + NatToString(index) + "-" + NatToString(time)
  }

  /** Position of the first '-' in `s` (or |s| when there is none). */
  function FirstDash(s: string): (k: nat)
    ensures k <= |s|
  {
    if s == [] || s[0] == '-' then 0 else 1 + FirstDash(s[1..])
  }

  lemma {:induction false} FirstDashAfterDigits(digits: string, rest: string)
    requires AllDigits(digits) && rest != [] && rest[0] == '-'
    ensures FirstDash(digits + rest) == |digits|
  {
    if digits != [] {
      assert (digits + rest)[1..] == digits[1..] + rest;
      FirstDashAfterDigits(digits[1..], rest);
    } else {
      assert digits + rest == rest;
    }
  }

  /** The index part of an id can be read back: equal ids come from equal indices, whatever the
      clock said. */
  lemma SlideIdIndex(i: nat, a: nat, j: nat, b: nat)
    ensures SlideId(i, a) == SlideId(j, b) ==> i == j
  {
    var x, y := NatToString(i), NatToString(j);
    var u := SlideId(i, a)[6..];
    var v := SlideId(j, b)[6..];
    assert u == x + ("-" + NatToString(a));
    assert v == y + ("-" + NatToString(b));
    FirstDashAfterDigits(x, "-" + NatToString(a));
    FirstDashAfterDigits(y, "-" + NatToString(b));
    assert u[..|x|] == x;
    assert v[..|y|] == y;
    if SlideId(i, a) == SlideId(j, b) {
      NatToStringInjective(i, j);
    }
  }

  /** `slide.title || "Untitled Slide"`, `slide.content || []`, `(slide.layout as SlideLayout) ||
      "TITLE_CONTENT"`: only a falsy field falls back; a non-empty unknown layout is kept. */
  function NormalizeSlide(d: RawSlide, index: nat, time: nat): (s: Slide)
    requires d.Descriptor?
    ensures s.id == SlideId(index, time)
    ensures s.title == (if d.title.Some? && d.title.value != "" then d.title.value else "Untitled Slide")
    ensures s.content == (if d.content.Some? then d.content.value else [])
    ensures d.layout.None? || d.layout.value == "" ==> s.layout == TitleContent
    ensures d.layout.Some? && d.layout.value != "" ==> LayoutName(s.layout) == d.layout.value
    ensures WellFormedLayout(s.layout)
    ensures s.imageUrl.None? && s.transition.None?
  {
    Slide(
      SlideId(index, time),
      if d.title.Some? && d.title.value != "" then d.title.value else "Untitled Slide",
      if d.content.Some? then d.content.value else [],
      if d.layout.Some? && d.layout.value != "" then ParseLayout(d.layout.value) else TitleContent,
      None,
      None)
  }

  predicate NoNullItem(items: seq<RawSlide>) {
    forall k :: 0 <= k < |items| ==> items[k].Descriptor?
  }

  /** `generateGeminiOutline` after the request: every failure on the way, including a non-array
      answer and a null element, becomes the one generic message; otherwise one slide per element,
      in order, stamped with the clock reading `now(k)` of its turn. */
  function GeminiOutline(response: OutlineResponse, now: nat -> nat): (r: Result<seq<Slide>, string>)
    ensures !(response.Items? && NoNullItem(response.items)) ==> r == Failure(OUTLINE_FAILED)
    ensures response.Items? && NoNullItem(response.items) ==>
      r.Success? && |r.value| == |response.items| &&
      forall k :: 0 <= k < |r.value| ==> r.value[k] == NormalizeSlide(response.items[k], k, now(k))
  {
    match response
    case Items(items) =>
      if NoNullItem(items) then Success(seq(|items|, k requires 0 <= k < |items| => NormalizeSlide(items[k], k, now(k))))
      else Failure(OUTLINE_FAILED)
    case _ => Failure(OUTLINE_FAILED)
  }

  /** `generateOutlineFromText`; the document text and language only shape the prompt. */
  function GenerateOutline(config: AiConfig, response: OutlineResponse, now: nat -> nat): (r: Result<seq<Slide>, string>)
    ensures Guard(config).Some? ==> r == Failure(Guard(config).value)
    ensures Guard(config).None? ==> r == GeminiOutline(response, now)
  {
    match Guard(config)
    case Some(e) => Failure(e)
    case None => GeminiOutline(response, now)
  }

  /** The slides of one outline have pairwise distinct ids, because their indices differ. */
  lemma OutlineIdsDistinct(response: OutlineResponse, now: nat -> nat)
    requires GeminiOutline(response, now).Success?
    ensures var slides := GeminiOutline(response, now).value;
      forall i, j :: 0 <= i < |slides| && 0 <= j < |slides| && i != j ==> slides[i].id != slides[j].id
  {
    var slides := GeminiOutline(response, now).value;
    forall i, j | 0 <= i < |slides| && 0 <= j < |slides| && i != j
      ensures slides[i].id != slides[j].id
    {
      SlideIdIndex(i, now(i), j, now(j));
    }
  }

  /** An element with an unknown layout name keeps that name; the outline does not fall back to
      TITLE_CONTENT for it (the renderer and the exporter treat it as TITLE_CONTENT later). */
  lemma UnknownLayoutPassesThrough(title: string, content: seq<string>, name: string, now: nat -> nat)
    requires name != "" && !IsKnownLayoutName(name)
    ensures GeminiOutline(Items([Descriptor(Some(title), Some(content), Some(name))]), now) ==
      Success([Slide(SlideId(0, now(0)), if title == "" then "Untitled Slide" else title, content, Unrecognized(name), None, None)])
  {
    var d := Descriptor(Some(title), Some(content), Some(name));
    var r := GeminiOutline(Items([d]), now);
    assert NoNullItem([d]);
    assert r.Success? && |r.value| == 1 && r.value[0] == NormalizeSlide(d, 0, now(0));
    assert ParseLayout(name) == Unrecognized(name);
    assert r.value == [r.value[0]];
  }

  // ---- refine ----

  const REFINE_FAILED := "Failed to refine text. The AI model might be busy or an error occurred."

  /** `accumulatedText += chunk.text` as written: a chunk without text (`chunk.text` undefined)
      appends the word "undefined". */
  function AccumulatedAsWritten(chunks: seq<Option<string>>): string {
    if chunks == [] then ""
    else AccumulatedAsWritten(chunks[..|chunks| - 1]) + (match chunks[|chunks| - 1] case Some(t) => t case None => "undefined")
  }

  /** A reply that streams "Hello" and then a chunk without text ends up as "Helloundefined". */
  lemma TextlessChunkAppendsUndefined()
    ensures AccumulatedAsWritten([Some("Hello"), None]) == "Helloundefined"
  {
    assert [Some("Hello"), None][..1] == [Some("Hello")];
    assert [Some("Hello")][..0] == [];
  }

  /** The text a chunk contributes, with a missing text contributing nothing. */
  function ChunkText(c: Option<string>): string {
    match c
    case Some(t) => t
    case None => ""
  }

  /** The concatenation of the chunks' texts, in order. */
  function Accumulated(chunks: seq<Option<string>>): string {
    if chunks == [] then "" else Accumulated(chunks[..|chunks| - 1]) + ChunkText(chunks[|chunks| - 1])
  }

  /** Accumulation distributes over a split of the stream: each snapshot is a prefix of every
      later one, and what is added is exactly the later chunks' text. */
  lemma {:induction false} AccumulatedAppend(a: seq<Option<string>>, b: seq<Option<string>>)
    ensures Accumulated(a + b) == Accumulated(a) + Accumulated(b)
    decreases |b|
  {
    if b == [] {
      assert a + b == a;
    } else {
      var b' := b[..|b| - 1];
      assert (a + b)[..|a + b| - 1] == a + b';
      AccumulatedAppend(a, b');
    }
  }

  /** Without textless chunks the corrected accumulation is the as-written one. */
  lemma {:induction false} AccumulatedAgreesWhenEveryChunkHasText(chunks: seq<Option<string>>)
    requires forall k :: 0 <= k < |chunks| ==> chunks[k].Some?
    ensures Accumulated(chunks) == AccumulatedAsWritten(chunks)
  {
    if chunks != [] {
      AccumulatedAgreesWhenEveryChunkHasText(chunks[..|chunks| - 1]);
    }
  }

  /** The streaming branch of `refineGeminiText`: after every chunk the callback gets the text
      so far; the call returns the trimmed whole text, which the callback never receives as such.
      `failsAfter` says the stream threw once the given chunks were delivered, which turns the
      call into the generic failure. */
  method RefineStream(chunks: seq<Option<string>>, failsAfter: bool) returns (delivered: seq<string>, result: Result<string, string>)
    ensures |delivered| == |chunks|
    ensures forall k :: 0 <= k < |chunks| ==> delivered[k] == Accumulated(chunks[..k + 1])
    ensures forall k, m :: 0 <= k <= m < |chunks| ==> delivered[k] <= delivered[m]
    ensures failsAfter ==> result == Failure(REFINE_FAILED)
    ensures !failsAfter ==> result == Success(Trim(Accumulated(chunks)))
  {
    var accumulatedText := "";
    delivered := [];
    var i := 0;
    while i < |chunks|
      invariant 0 <= i <= |chunks|
      invariant accumulatedText == Accumulated(chunks[..i])
      invariant |delivered| == i
      invariant forall k :: 0 <= k < i ==> delivered[k] == Accumulated(chunks[..k + 1])
    {
      assert chunks[..i + 1][..i] == chunks[..i];
      accumulatedText := accumulatedText + ChunkText(chunks[i]);
      delivered := delivered + [accumulatedText];
      i := i + 1;
    }
    assert chunks[..|chunks|] == chunks;
    forall k, m | 0 <= k <= m < |chunks| ensures delivered[k] <= delivered[m] {
      assert chunks[..m + 1] == chunks[..k + 1] + chunks[k + 1..m + 1];
      AccumulatedAppend(chunks[..k + 1], chunks[k + 1..m + 1]);
    }
    if failsAfter {
      result := Failure(REFINE_FAILED);
    } else {
      result := Success(Trim(accumulatedText));
    }
  }

  /** What the refine request gave back. */
  datatype RefineResponse =
    | RefineCallFailed                                  // the request threw before any chunk
    | Streamed(chunks: seq<Option<string>>, failsAfter: bool)
    | Whole(text: Option<string>)                       // non-streaming reply; `None` when it has no text

  /** `refineText`: the guard, then the streaming branch when a callback is given, the single
      request otherwise (whose missing text throws and so fails generically). A streamed reply
      only answers the streaming request, and a whole one only the single request. */
  method RefineText(config: AiConfig, withCallback: bool, response: RefineResponse)
    returns (delivered: seq<string>, result: Result<string, string>)
    requires response.Streamed? ==> withCallback
    requires response.Whole? ==> !withCallback
    ensures Guard(config).Some? ==> delivered == [] && result == Failure(Guard(config).value)
    ensures Guard(config).None? && response.RefineCallFailed? ==>
      delivered == [] && result == Failure(REFINE_FAILED)
    ensures Guard(config).None? && withCallback && response.Streamed? ==>
      |delivered| == |response.chunks| &&
      result == (if response.failsAfter then Failure(REFINE_FAILED) else Success(Trim(Accumulated(response.chunks))))
    ensures Guard(config).None? && !withCallback && response.Whole? ==>
      delivered == [] &&
      result == (if response.text.Some? then Success(Trim(response.text.value)) else Failure(REFINE_FAILED))
  {
    delivered := [];
    if Guard(config).Some? {
      return [], Failure(Guard(config).value);
    }
    match response
    case RefineCallFailed =>
      result := Failure(REFINE_FAILED);
    case Streamed(chunks, failsAfter) =>
      delivered, result := RefineStream(chunks, failsAfter);
    case Whole(text) =>
      result := if text.Some? then Success(Trim(text.value)) else Failure(REFINE_FAILED);
  }

  // ---- image ----

  /** The error thrown when the reply holds no image: one string in the source, here written as
      three literals, whose letters the verifier can inspect one piece at a time. */
  const NO_IMAGE := "AI did not return an image." + " The response may have been" + " blocked due to safety policies."
  const IMAGE_SAFETY := "Image generation failed due to safety policies. Please adjust your prompt."
  const IMAGE_FAILED := "Failed to generate image. The model might be busy or an error occurred."

  /** Whatever a failing call threw: an Error with its message, or some other value. */
  datatype Thrown = ErrorObject(message: string) | OtherValue

  /** The catch block of `generateGeminiImage`: an Error with a message containing "SAFETY" gets
      the safety text, any other Error with a non-empty message is quoted, and everything else
      gets the generic text. */
  function ImageErrorMessage(t: Thrown): (m: string)
    ensures t.ErrorObject? && t.message != "" && Contains(t.message, "SAFETY") ==> m == IMAGE_SAFETY
    ensures t.ErrorObject? && t.message != "" && !Contains(t.message, "SAFETY") ==> m == "Image generation failed: " + t.message
    ensures (t.OtherValue? || t.message == "") ==> m == IMAGE_FAILED
  {
    match t
    case ErrorObject(message) =>
      if message == "" then IMAGE_FAILED
      else if Contains(message, "SAFETY") then IMAGE_SAFETY
      else "Image generation failed: " + message
    case OtherValue => IMAGE_FAILED
  }

  /** What the image request gave back: it threw, or it answered with the first image's bytes
      (`None` when there is no image at all). */
  datatype ImageResponse = ImageCallFailed(error: Thrown) | ImageReturned(bytes: Option<string>)

  /** `generateGeminiImage`: non-empty bytes become a PNG data URI; no image throws the no-image
      error inside the same try, so it reaches the caller through the error mapping. */
  function GeminiImage(response: ImageResponse): (r: Result<string, string>)
    ensures response.ImageReturned? && response.bytes.Some? && response.bytes.value != "" ==>
      r == Success("data:image/png;base64," + response.bytes.value)
    ensures response.ImageReturned? && (response.bytes.None? || response.bytes.value == "") ==>
      r == Failure(ImageErrorMessage(ErrorObject(NO_IMAGE)))
    ensures response.ImageCallFailed? ==> r == Failure(ImageErrorMessage(response.error))
  {
    match response
    case ImageReturned(bytes) =>
      if bytes.Some? && bytes.value != "" then Success("data:image/png;base64," + bytes.value)
      else Failure(ImageErrorMessage(ErrorObject(NO_IMAGE)))
    case ImageCallFailed(error) => Failure(ImageErrorMessage(error))
  }

  /** The no-image error mentions safety only in lower case, so the user sees it quoted, not the
      safety text. */
  lemma NoImageIsQuoted()
    ensures ImageErrorMessage(ErrorObject(NO_IMAGE)) == "Image generation failed: " + NO_IMAGE
  {
    assert 'S' !in "AI did not return an image.";
    assert 'S' !in " The response may have been";
    assert 'S' !in " blocked due to safety policies.";
    NotContainsWithoutFirst(NO_IMAGE, "SAFETY");
  }

  /** A successful image is always a PNG data URI that ends in the returned bytes. */
  lemma ImageResultIsDataUri(response: ImageResponse)
    requires GeminiImage(response).Success?
    ensures var uri := GeminiImage(response).value;
      uri[..22] == "data:image/png;base64," && |uri| > 22 && uri[22..] == response.bytes.value
  {
  }

  /** `generateImage` */
  function GenerateImage(config: AiConfig, response: ImageResponse): (r: Result<string, string>)
    ensures Guard(config).Some? ==> r == Failure(Guard(config).value)
    ensures Guard(config).None? ==> r == GeminiImage(response)
  {
    match Guard(config)
    case Some(e) => Failure(e)
    case None => GeminiImage(response)
  }
}

=== FILE: app.dfy ===
/** The application shell (App.tsx): the phase machine from upload to editing, the provider,
    model and key settings, and the persisted settings they are read from and written to. The
    browser's localStorage is the `storage` map field; the key map, which the source stores as
    JSON under "llm_api_keys", is kept as its own field. */
module App {
  import opened Wrappers
  import opened Types
  import AiService
  import FileParser
  import OutlineEditor

  const PROVIDER_KEY := "llm_provider"
  const MODEL_KEY := "llm_model"
  const DEFAULT_MODEL := "gemini-2.5-flash"

  /** The provider and model the shell starts with, and the storage after the check. */
  datatype InitialConfig = InitialConfig(provider: LlmProvider, model: string, storage: map<string, string>)

  /** The stored provider string: `getItem('llm_provider') || 'gemini'`. */
  function StoredProviderName(storage: map<string, string>): (name: string)
    ensures name != ""
  {
    if PROVIDER_KEY in storage && storage[PROVIDER_KEY] != "" then storage[PROVIDER_KEY] else "gemini"
  }

  /** The stored pair is valid: a known provider and one of its models. */
  predicate StoredPairValid(storage: map<string, string>) {
    var p := ParseProvider(StoredProviderName(storage));
    p.Some? && MODEL_KEY in storage && storage[MODEL_KEY] in Models(p.value)
  }

  /** `getInitialAiConfig`: a valid stored pair is kept as it is; anything else falls back to
      Gemini and its first model, and that pair is written back. */
  function InitialAiConfig(storage: map<string, string>): (r: InitialConfig)
    ensures r.model in Models(r.provider)
    ensures StoredPairValid(storage) ==>
      r.storage == storage && ProviderId(r.provider) == StoredProviderName(storage) && r.model == storage[MODEL_KEY]
    ensures !StoredPairValid(storage) ==>
      r.provider == Gemini && r.model == Models(Gemini)[0] &&
      r.storage == storage[PROVIDER_KEY := "gemini"][MODEL_KEY := DEFAULT_MODEL]
  {
    var p := ParseProvider(StoredProviderName(storage));
    if p.Some? && MODEL_KEY in storage && storage[MODEL_KEY] in Models(p.value) then
      InitialConfig(p.value, storage[MODEL_KEY], storage)
    else
      InitialConfig(Gemini, DEFAULT_MODEL, storage[PROVIDER_KEY := "gemini"][MODEL_KEY := DEFAULT_MODEL])
  }

  /** The check runs on every render; after the first run it finds the pair it left behind and
      changes nothing more. */
  lemma InitialAiConfigSettles(storage: map<string, string>)
    ensures var r := InitialAiConfig(storage);
      InitialAiConfig(r.storage) == InitialConfig(r.provider, r.model, r.storage)
  {
    var r := InitialAiConfig(storage);
    if !StoredPairValid(storage) {
      assert StoredProviderName(r.storage) == "gemini";
      assert r.storage[MODEL_KEY] == DEFAULT_MODEL;
      assert StoredPairValid(r.storage);
    }
  }

  class Shell {
    var appState: AppState
    var presentation: Option<Presentation>
    var outline: Option<seq<Slide>>
    var error: Option<string>
    var language: Language
    var llmProvider: LlmProvider
    var llmModel: string
    var apiKeys: map<LlmProvider, string>
    var storedApiKeys: map<LlmProvider, string>
    var storage: map<string, string>

    /** The screens that show an outline have one, and the editor has a deck. */
    ghost predicate Valid()
      reads this
    {
      && ((appState == ReviewingOutline || appState == SelectingTemplate || appState == Editing) ==> outline.Some?)
      && (appState == Editing ==> presentation.Some?)
    }

    /** The shell starts on the welcome screen with the checked settings; the key map is what
        was persisted. */
    constructor (initialStorage: map<string, string>, persistedKeys: map<LlmProvider, string>)
      ensures Valid()
      ensures appState == Welcome && presentation == None && outline == None && error == None && language == EN
      ensures var init := InitialAiConfig(initialStorage);
        llmProvider == init.provider && llmModel == init.model && storage == init.storage
      ensures llmModel in Models(llmProvider)
      ensures apiKeys == persistedKeys && storedApiKeys == persistedKeys
    {
      var init := InitialAiConfig(initialStorage);
      appState := Welcome;
      presentation := None;
      outline := None;
      error := None;
      language := EN;
      llmProvider := init.provider;
      llmModel := init.model;
      storage := init.storage;
      apiKeys := persistedKeys;
      storedApiKeys := persistedKeys;
    }

    /** The configuration handed to the AI calls: the current provider and model and that
        provider's key, if any. */
    function AiConfig(): (c: Types.AiConfig)
      reads this
      ensures c.provider == llmProvider && c.model == llmModel
      ensures c.apiKey.Some? <==> llmProvider in apiKeys
      ensures c.apiKey.Some? ==> c.apiKey.value == apiKeys[llmProvider]
    {
      Types.AiConfig(llmProvider, llmModel, if llmProvider in apiKeys then Some(apiKeys[llmProvider]) else None)
    }

    /** `handleLlmProviderChange`: the model becomes the provider's first model, both are
        persisted, and the error is cleared. */
    method ProviderChange(provider: LlmProvider)
      requires Valid()
      modifies this`llmProvider, this`llmModel, this`storage, this`error
      ensures Valid()
      ensures llmProvider == provider && llmModel == Models(provider)[0] && llmModel in Models(llmProvider)
      ensures storage == old(storage)[PROVIDER_KEY := ProviderId(provider)][MODEL_KEY := Models(provider)[0]]
      ensures error == None
    {
      llmProvider := provider;
      llmModel := Models(provider)[0];
      storage := storage[PROVIDER_KEY := ProviderId(provider)];
      storage := storage[MODEL_KEY := Models(provider)[0]];
      error := None;
    }

    /** `handleLlmModelChange`: the model is taken and persisted as given; the welcome screen's
        list only offers the provider's own models. */
    method ModelChange(model: string)
      requires Valid()
      modifies this`llmModel, this`storage
      ensures Valid()
      ensures llmModel == model && storage == old(storage)[MODEL_KEY := model]
    {
      llmModel := model;
      storage := storage[MODEL_KEY := model];
    }

    /** `handleApiKeysChange`: only the provider's own entry changes, in memory and in storage;
        the error is cleared only when it is the missing-key message. */
    method ApiKeysChange(provider: LlmProvider, key: string)
      requires Valid()
      modifies this`apiKeys, this`storedApiKeys, this`error
      ensures Valid()
      ensures apiKeys == old(apiKeys)[provider := key] && storedApiKeys == apiKeys
      ensures forall p :: p != provider ==> (p in apiKeys <==> p in old(apiKeys)) && (p in apiKeys ==> apiKeys[p] == old(apiKeys)[p])
      ensures error == if old(error) == Some(ApiKeyMissingText(language)) then None else old(error)
    {
      var newKeys := apiKeys[provider := key];
      apiKeys := newKeys;
      storedApiKeys := newKeys;
      if error == Some(ApiKeyMissingText(language)) {
        error := None;
      }
    }

    /** The language button. */
    method ToggleLanguage()
      requires Valid()
      modifies this`language
      ensures Valid()
      ensures language == if old(language) == EN then ZH_TW else EN
    {
      language := if language == EN then ZH_TW else EN;
    }

    /** `handleFileProcess`. Without a key for the current provider the missing-key message is
        shown and nothing else happens. Otherwise the shell passes through PARSING and
        GENERATING_OUTLINE, recorded in `phases`, and ends reviewing the new outline, or back on
        the welcome screen with the message of the first failure. Both services reject with
        Error objects, so the message shown is always theirs. */
    method ProcessFile(file: FileParser.FileInput, response: AiService.OutlineResponse, now: nat -> nat)
      returns (phases: seq<AppState>)
      requires Valid()
      modifies this`appState, this`error, this`outline
      ensures Valid()
      ensures AiService.KeyMissing(AiConfig()) ==>
        phases == [] && error == Some(ApiKeyMissingText(language)) && appState == old(appState) && outline == old(outline)
      ensures !AiService.KeyMissing(AiConfig()) && FileParser.Parse(file).Failure? ==>
        phases == [Parsing, Welcome] && appState == Welcome && error == Some(FileParser.Parse(file).error) &&
        outline == old(outline)
      ensures !AiService.KeyMissing(AiConfig()) && FileParser.Parse(file).Success? ==>
        var generated := AiService.GenerateOutline(AiConfig(), response, now);
        && (generated.Failure? ==>
              phases == [Parsing, GeneratingOutline, Welcome] && appState == Welcome && error == Some(generated.error) &&
              outline == old(outline))
        && (generated.Success? ==>
              phases == [Parsing, GeneratingOutline, ReviewingOutline] && appState == ReviewingOutline && error == None &&
              outline == Some(generated.value))
    {
      var config := AiConfig();
      if AiService.KeyMissing(config) {
        error := Some(ApiKeyMissingText(language));
        return [];
      }
      appState := Parsing;
      phases := [Parsing];
      error := None;
      var parsed := FileParser.ParseFile(file);
      if parsed.Failure? {
        error := Some(parsed.error);
        appState := Welcome;
        phases := phases + [Welcome];
        return;
      }
      appState := GeneratingOutline;
      phases := phases + [GeneratingOutline];
      var generated := AiService.GenerateOutline(config, response, now);
      if generated.Failure? {
        error := Some(generated.error);
        appState := Welcome;
        phases := phases + [Welcome];
        return;
      }
      outline := Some(generated.value);
      appState := ReviewingOutline;
      phases := phases + [ReviewingOutline];
    }

    /** `handleOutlineConfirm`: the confirmed outline replaces the draft and template choice
        begins. */
    method OutlineConfirm(finalOutline: seq<Slide>)
      requires Valid()
      modifies this`outline, this`appState
      ensures Valid()
      ensures outline == Some(finalOutline) && appState == SelectingTemplate
    {
      outline := Some(finalOutline);
      appState := SelectingTemplate;
    }

    /** The outline screen's confirm button is wired to `handleOutlineConfirm`: the shell keeps
        exactly the draft as edited and template choice begins. */
    method ConfirmDraft(draft: OutlineEditor.OutlineState)
      requires Valid()
      modifies this`outline, this`appState
      ensures Valid()
      ensures outline == Some(draft.outline) && appState == SelectingTemplate
    {
      var finalOutline := draft.Confirm();
      OutlineConfirm(finalOutline);
    }

    /** `handleBackToOutline`, offered by the template chooser and the editor, both of which
        hold an outline to go back to. */
    method BackToOutline()
      requires Valid() && outline.Some?
      modifies this`appState
      ensures Valid()
      ensures appState == ReviewingOutline
    {
      appState := ReviewingOutline;
    }

    /** `handleTemplateSelect`: with an outline, a deck titled "My AI Presentation" holding the
        outline's slides in the chosen template is created and the editor opens; without one
        nothing happens. */
    method TemplateSelect(template: PresentationTemplate)
      requires Valid()
      modifies this`presentation, this`appState
      ensures Valid()
      ensures old(outline).None? ==> presentation == old(presentation) && appState == old(appState)
      ensures old(outline).Some? ==>
        presentation == Some(Presentation("My AI Presentation", old(outline).value, template)) && appState == Editing
    {
      if outline.Some? {
        presentation := Some(Presentation("My AI Presentation", outline.value, template));
        appState := Editing;
      }
    }

    /** `handleNewPresentation`: back to the welcome screen with no deck, outline or error. */
    method NewPresentation()
      requires Valid()
      modifies this`appState, this`presentation, this`outline, this`error
      ensures Valid()
      ensures appState == Welcome && presentation == None && outline == None && error == None
    {
      appState := Welcome;
      presentation := None;
      outline := None;
      error := None;
    }
  }

  /** Upload with a Gemini key, an outline of at least one slide, retitle its first slide on the
      outline screen, confirm, choose a template: the deck holds the edited outline in the chosen
      template. */
  method EndToEnd(storage: map<string, string>, key: string, file: FileParser.FileInput,
                  response: AiService.OutlineResponse, now: nat -> nat, template: PresentationTemplate)
    requires key != ""
    requires FileParser.Classify(file.name, file.mimeType) == FileParser.PlainText && file.read.ReadString?
    requires AiService.GeminiOutline(response, now).Success? && |AiService.GeminiOutline(response, now).value| >= 1
  {
    var shell := new Shell(storage, map[]);
    shell.ProviderChange(Gemini);
    shell.ApiKeysChange(Gemini, key);
    var phases := shell.ProcessFile(file, response, now);
    assert phases == [Parsing, GeneratingOutline, ReviewingOutline];
    var generated := shell.outline.value;
    var draft := new OutlineEditor.OutlineState(generated);
    draft.SetTitle(0, "Overview");
    shell.ConfirmDraft(draft);
    shell.TemplateSelect(template);
    assert shell.appState == Editing;
    assert shell.presentation.value.slides == OutlineEditor.WithTitle(generated, 0, "Overview");
    assert |shell.presentation.value.slides| == |generated| && shell.presentation.value.template == template;
  }
}

=== FILE: editor.dfy ===
/** The deck editing state of the editor screen (components/Editor.tsx): the deck, the selected
    slide, and the two dialog round-trips (refine and image) keyed by the index captured when the
    dialog opened. */
module Editor {
  import opened Wrappers
  import opened Types
  import opened Edits
  import ExportService
  import SlidePreview
  import Sidebar
  import RefineModal

  /** The drag-reorder splice: `splice(from, 1)` takes the slide out, `splice(to, 0, removed)`
      puts it back in front of position `to` of what remains. */
  function Move<T>(s: seq<T>, from: nat, to: nat): (r: seq<T>)
    requires from < |s| && to < |s|
    ensures |r| == |s|
  {
    var rest := s[..from] + s[from + 1..];
    rest[..to] + [s[from]] + rest[to..]
  }

  /** Where the selection goes when the slide at `drag` is dropped at `drop`. */
  function SelectionAfterMove(sel: nat, drag: nat, drop: nat): (r: nat)
    ensures r == drop <==> sel == drag
    ensures sel != drag ==> r == sel - 1 || r == sel || r == sel + 1
  {
    if sel == drag then drop
    else if sel > drag && sel <= drop then sel - 1
    else if sel < drag && sel >= drop then sel + 1
    else sel
  }

  /** Element `j` of a moved sequence, read off the two splices. */
  lemma MoveAt<T>(s: seq<T>, from: nat, to: nat, j: nat)
    requires from < |s| && to < |s| && j < |s|
    ensures Move(s, from, to)[j] ==
      if j == to then s[from]
      else if j < to then (if j < from then s[j] else s[j + 1])
      else (if j - 1 < from then s[j - 1] else s[j])
  {
    var rest := s[..from] + s[from + 1..];
    assert |rest| == |s| - 1;
    if j < to {
      assert Move(s, from, to)[j] == rest[j];
    } else if j > to {
      assert Move(s, from, to)[j] == rest[j - 1];
    }
  }

  /** Every slide goes to the position the selection rule assigns it: the selection rule follows
      the selected slide, whichever slide is selected. */
  lemma MoveTracksSelection<T>(s: seq<T>, from: nat, to: nat, sel: nat)
    requires from < |s| && to < |s| && sel < |s|
    ensures SelectionAfterMove(sel, from, to) < |s|
    ensures Move(s, from, to)[SelectionAfterMove(sel, from, to)] == s[sel]
  {
    MoveAt(s, from, to, SelectionAfterMove(sel, from, to));
  }

  /** The dragged slide lands at `to`. */
  lemma MovePlacesDragged<T>(s: seq<T>, from: nat, to: nat)
    requires from < |s| && to < |s|
    ensures Move(s, from, to)[to] == s[from]
  {
    MoveTracksSelection(s, from, to, from);
  }

  /** Reorder is a permutation: the same slides, each as often as before. */
  lemma MovePermutes<T>(s: seq<T>, from: nat, to: nat)
    requires from < |s| && to < |s|
    ensures multiset(Move(s, from, to)) == multiset(s)
  {
    var rest := s[..from] + s[from + 1..];
    assert s == s[..from] + [s[from]] + s[from + 1..];
    assert rest == rest[..to] + rest[to..];
    calc {
      multiset(Move(s, from, to));
      multiset(rest[..to]) + multiset{s[from]} + multiset(rest[to..]);
      multiset(rest) + multiset{s[from]};
      multiset(s);
    }
  }

  /** With the dragged slide taken out on both sides, the other slides are in the same order. */
  lemma MoveKeepsOrder<T>(s: seq<T>, from: nat, to: nat)
    requires from < |s| && to < |s|
    ensures RemoveAt(Move(s, from, to), to) == RemoveAt(s, from)
  {
    var rest := s[..from] + s[from + 1..];
    var r := Move(s, from, to);
    RemoveAtSplice(r, to);
    RemoveAtSplice(s, from);
    assert r[..to] == rest[..to];
    assert r[to + 1..] == rest[to..];
  }

  /** Dragging the slide back undoes a reorder, deck and selection alike. */
  lemma MoveUndo<T>(s: seq<T>, from: nat, to: nat, sel: nat)
    requires from < |s| && to < |s| && sel < |s|
    ensures Move(Move(s, from, to), to, from) == s
    ensures SelectionAfterMove(SelectionAfterMove(sel, from, to), to, from) == sel
  {
    var rest := s[..from] + s[from + 1..];
    var r := Move(s, from, to);
    MovePlacesDragged(s, from, to);
    assert r[..to] + r[to + 1..] == rest;
    assert rest[..from] == s[..from];
    assert rest[from..] == s[from + 1..];
    assert s == s[..from] + [s[from]] + s[from + 1..];
  }

  /** The image dialog: open or not, and the slide it was opened for. */
  datatype ImageGenState = ImageGenState(isOpen: bool, slideIndex: Option<nat>)

  /** The slide `addSlide` appends, with the id passed in for `slide-${Date.now()}`. */
  function NewSlide(id: string): (s: Slide)
    ensures s.id == id && s.layout == TitleContent && |s.content| == 1
    ensures s.imageUrl.None? && s.transition.None?
  {
    Slide(id, "New Slide", ["Your content here."], TitleContent, None, None)
  }

  /** The export buttons. */
  datatype ExportFormat = Pdf | Pptx

  class EditorState {
    var presentation: Presentation
    var selectedSlideIndex: nat
    var refineData: Option<RefineRequest>
    var imageGenState: ImageGenState
    var isPresentationMode: bool

    /** The selection points at a slide, or at 0 on an empty deck. */
    ghost predicate Valid()
      reads this
    {
      selectedSlideIndex < |presentation.slides| || (presentation.slides == [] && selectedSlideIndex == 0)
    }

    constructor (initialPresentation: Presentation)
      ensures Valid()
      ensures presentation == initialPresentation && selectedSlideIndex == 0
      ensures refineData == None && imageGenState == ImageGenState(false, None) && !isPresentationMode
    {
      presentation := initialPresentation;
      selectedSlideIndex := 0;
      refineData := None;
      imageGenState := ImageGenState(false, None);
      isPresentationMode := false;
    }

    /** `updateSlide`: the slide at `slideIndex` gets the supplied fields of the patch; the title,
        the template, the length and every other slide stay. */
    method UpdateSlide(slideIndex: nat, patch: SlidePatch)
      requires Valid() && slideIndex < |presentation.slides|
      modifies this`presentation
      ensures Valid()
      ensures presentation.title == old(presentation.title) && presentation.template == old(presentation.template)
      ensures presentation.slides == old(presentation.slides)[slideIndex := Merge(old(presentation.slides[slideIndex]), patch)]
    {
      var newSlides := presentation.slides;
      newSlides := newSlides[slideIndex := Merge(newSlides[slideIndex], patch)];
      presentation := presentation.(slides := newSlides);
    }

    /** `handleSlideReorder`: the slides are spliced, and the selection keeps pointing at the
        slide it pointed at; the deck holds the same slides, and apart from the dragged one they
        keep their order. */
    method Reorder(dragIndex: nat, dropIndex: nat)
      requires Valid() && dragIndex < |presentation.slides| && dropIndex < |presentation.slides|
      modifies this`presentation, this`selectedSlideIndex
      ensures Valid()
      ensures presentation == old(presentation).(slides := Move(old(presentation.slides), dragIndex, dropIndex))
      ensures selectedSlideIndex == SelectionAfterMove(old(selectedSlideIndex), dragIndex, dropIndex)
      ensures presentation.slides[selectedSlideIndex] == old(presentation.slides[selectedSlideIndex])
      ensures multiset(presentation.slides) == multiset(old(presentation.slides))
      ensures RemoveAt(presentation.slides, dropIndex) == RemoveAt(old(presentation.slides), dragIndex)
    {
      MoveTracksSelection(presentation.slides, dragIndex, dropIndex, selectedSlideIndex);
      MovePermutes(presentation.slides, dragIndex, dropIndex);
      MoveKeepsOrder(presentation.slides, dragIndex, dropIndex);
      var newSlides := Move(presentation.slides, dragIndex, dropIndex);
      selectedSlideIndex := SelectionAfterMove(selectedSlideIndex, dragIndex, dropIndex);
      presentation := presentation.(slides := newSlides);
    }

    /** `handleTitleChange`: only the deck title changes. */
    method SetTitle(newTitle: string)
      requires Valid()
      modifies this`presentation
      ensures Valid()
      ensures presentation == old(presentation).(title := newTitle)
    {
      presentation := presentation.(title := newTitle);
    }

    /** `handleRefineClick`: remembers which field the refine dialog is for. */
    method RefineClick(slideIndex: int, contentIndex: int, text: string)
      modifies this`refineData
      ensures refineData == Some(RefineRequest(slideIndex, contentIndex, text))
    {
      refineData := Some(RefineRequest(slideIndex, contentIndex, text));
    }

    /** The refine dialog's close: the request is dropped, the deck is untouched. */
    method RefineClose()
      modifies this`refineData
      ensures refineData == None
    {
      refineData := None;
    }

    /** `handleRefineConfirm`: with an open request, the content entry it names gets the new text
        (`newContent[contentIndex] = newText`) and the request is cleared. A title request
        carries -1, which writes no element, so the deck is left as it was. Without a request
        nothing happens. */
    method RefineConfirm(newText: string)
      requires Valid()
      requires refineData.Some? ==>
        0 <= refineData.value.slideIndex < |presentation.slides| &&
        refineData.value.contentIndex < |presentation.slides[refineData.value.slideIndex].content|
      modifies this`presentation, this`refineData
      ensures Valid()
      ensures old(refineData).None? ==> presentation == old(presentation) && refineData == None
      ensures old(refineData).Some? ==> (refineData == None &&
        var RefineRequest(i, c, _) := old(refineData).value;
        var slide := old(presentation.slides[i]);
        presentation == old(presentation).(slides := old(presentation.slides)[i := slide.(content := AssignAt(slide.content, c, newText))]))
      ensures old(refineData).Some? && old(refineData).value.contentIndex < 0 ==> presentation == old(presentation)
    {
      if refineData.Some? {
        var RefineRequest(slideIndex, contentIndex, _) := refineData.value;
        var newSlides := presentation.slides;
        var newContent := AssignAt(newSlides[slideIndex].content, contentIndex, newText);
        if contentIndex < 0 {
          assert newContent == newSlides[slideIndex].content;
        }
        newSlides := newSlides[slideIndex := newSlides[slideIndex].(content := newContent)];
        presentation := presentation.(slides := newSlides);
        refineData := None;
      }
    }

    /** `handleRefineConfirm` as evidently intended: a title request (content index -1) writes
        the slide's title, and a bullet request writes its entry, as the confirm does. The
        request is cleared either way; without a request nothing happens. */
    method RefineConfirmIntended(newText: string)
      requires Valid()
      requires refineData.Some? ==>
        0 <= refineData.value.slideIndex < |presentation.slides| &&
        refineData.value.contentIndex < |presentation.slides[refineData.value.slideIndex].content|
      modifies this`presentation, this`refineData
      ensures Valid()
      ensures old(refineData).None? ==> presentation == old(presentation) && refineData == None
      ensures old(refineData).Some? ==> (refineData == None &&
        var RefineRequest(i, c, _) := old(refineData).value;
        var slide := old(presentation.slides[i]);
        presentation == old(presentation).(slides := old(presentation.slides)[i :=
          if c < 0 then slide.(title := newText) else slide.(content := AssignAt(slide.content, c, newText))]))
    {
      if refineData.Some? {
        var RefineRequest(slideIndex, contentIndex, _) := refineData.value;
        var slide := presentation.slides[slideIndex];
        var newSlide := if contentIndex < 0 then slide.(title := newText)
                        else slide.(content := AssignAt(slide.content, contentIndex, newText));
        presentation := presentation.(slides := presentation.slides[slideIndex := newSlide]);
        refineData := None;
      }
    }

    /** `handleOpenImageGenerator`: opens the image dialog for a slide. */
    method OpenImageGenerator(slideIndex: nat)
      modifies this`imageGenState
      ensures imageGenState == ImageGenState(true, Some(slideIndex))
    {
      imageGenState := ImageGenState(true, Some(slideIndex));
    }

    /** `handleImageGenerated`: the image goes to the slide the dialog was opened for — whatever
        is selected now — and the dialog closes. */
    method ImageGenerated(imageUrl: string)
      requires Valid()
      requires imageGenState.slideIndex.Some? ==> imageGenState.slideIndex.value < |presentation.slides|
      modifies this`presentation, this`imageGenState
      ensures Valid()
      ensures imageGenState == ImageGenState(false, None)
      ensures old(imageGenState.slideIndex).None? ==> presentation == old(presentation)
      ensures old(imageGenState.slideIndex).Some? ==>
        var i := old(imageGenState.slideIndex).value;
        presentation == old(presentation).(slides := old(presentation.slides)[i := old(presentation.slides[i]).(imageUrl := Some(imageUrl))])
    {
      if imageGenState.slideIndex.Some? {
        UpdateSlide(imageGenState.slideIndex.value, SlidePatch(imageUrl := Some(Some(imageUrl))));
      }
      imageGenState := ImageGenState(false, None);
    }

    /** The image dialog's close: the dialog state resets, the deck is untouched. */
    method CloseImageGenerator()
      modifies this`imageGenState
      ensures imageGenState == ImageGenState(false, None)
    {
      imageGenState := ImageGenState(false, None);
    }

    /** `addSlide`: one default slide at the end, and it becomes the selection. */
    method AddSlide(newId: string)
      requires Valid()
      modifies this`presentation, this`selectedSlideIndex
      ensures Valid()
      ensures presentation == old(presentation).(slides := old(presentation.slides) + [NewSlide(newId)])
      ensures selectedSlideIndex == old(|presentation.slides|)
      ensures presentation.slides[selectedSlideIndex] == NewSlide(newId)
    {
      selectedSlideIndex := |presentation.slides|;
      presentation := presentation.(slides := presentation.slides + [NewSlide(newId)]);
    }

    /** `deleteSlide`: refused on a deck of at most one slide; otherwise the slide at the index
        is filtered out and the selection moves one back, clamped at 0. A deck that had slides
        never becomes empty. */
    method DeleteSlide(indexToDelete: int)
      requires Valid()
      modifies this`presentation, this`selectedSlideIndex
      ensures Valid()
      ensures old(|presentation.slides|) <= 1 ==>
        presentation == old(presentation) && selectedSlideIndex == old(selectedSlideIndex)
      ensures old(|presentation.slides|) > 1 ==>
        presentation == old(presentation).(slides := RemoveAt(old(presentation.slides), indexToDelete)) &&
        selectedSlideIndex == if old(selectedSlideIndex) == 0 then 0 else old(selectedSlideIndex) - 1
      ensures old(|presentation.slides|) > 1 && 0 <= indexToDelete < old(|presentation.slides|) ==>
        presentation.slides == old(presentation.slides[..indexToDelete] + presentation.slides[indexToDelete + 1..])
      ensures old(|presentation.slides|) >= 1 ==> |presentation.slides| >= 1
    {
      if |presentation.slides| <= 1 {
        return;
      }
      RemoveAtSplice(presentation.slides, indexToDelete);
      presentation := presentation.(slides := RemoveAt(presentation.slides, indexToDelete));
      selectedSlideIndex := if selectedSlideIndex == 0 then 0 else selectedSlideIndex - 1;
    }

    /** `handleTransitionChange`: only the selected slide's transition changes. */
    method SetTransition(transition: Transition)
      requires Valid() && selectedSlideIndex < |presentation.slides|
      modifies this`presentation
      ensures Valid()
      ensures presentation == old(presentation).(slides := old(presentation.slides)[selectedSlideIndex := old(presentation.slides[selectedSlideIndex]).(transition := Some(transition))])
    {
      UpdateSlide(selectedSlideIndex, SlidePatch(transition := Some(Some(transition))));
    }

    /** The sidebar's `onSelectSlide`. */
    method SelectSlide(index: nat)
      requires index < |presentation.slides|
      modifies this`selectedSlideIndex
      ensures Valid() && selectedSlideIndex == index
    {
      selectedSlideIndex := index;
    }

    /** The sidebar's callbacks as Editor.tsx wires them: a select command reaches
        `setSelectedSlideIndex`, a delete `deleteSlide`, a reorder `handleSlideReorder` and the add
        button `addSlide`. The select and reorder indices are those of rendered thumbnails. */
    method Dispatch(command: Sidebar.Command, newId: string)
      requires Valid()
      requires command.SelectSlide? ==> command.index < |presentation.slides|
      requires command.ReorderSlides? ==>
        command.dragIndex < |presentation.slides| && command.dropIndex < |presentation.slides|
      modifies this`presentation, this`selectedSlideIndex
      ensures Valid()
      ensures command.SelectSlide? ==> presentation == old(presentation) && selectedSlideIndex == command.index
      ensures command.DeleteSlide? && old(|presentation.slides|) <= 1 ==>
        presentation == old(presentation) && selectedSlideIndex == old(selectedSlideIndex)
      ensures command.DeleteSlide? && old(|presentation.slides|) > 1 ==>
        presentation == old(presentation).(slides := RemoveAt(old(presentation.slides), command.index)) &&
        selectedSlideIndex == if old(selectedSlideIndex) == 0 then 0 else old(selectedSlideIndex) - 1
      ensures command.ReorderSlides? ==>
        presentation == old(presentation).(slides := Move(old(presentation.slides), command.dragIndex, command.dropIndex)) &&
        selectedSlideIndex == SelectionAfterMove(old(selectedSlideIndex), command.dragIndex, command.dropIndex)
      ensures command.AddSlide? ==>
        presentation == old(presentation).(slides := old(presentation.slides) + [NewSlide(newId)]) &&
        selectedSlideIndex == old(|presentation.slides|)
    {
      match command
      case SelectSlide(index) => SelectSlide(index);
      case DeleteSlide(index) => DeleteSlide(index);
      case ReorderSlides(dragIndex, dropIndex) => Reorder(dragIndex, dropIndex);
      case AddSlide => AddSlide(newId);
    }

    /** A click on thumbnail `index` selects that slide and leaves the deck as it was. */
    method ClickThumbnail(index: nat)
      requires Valid() && index < |presentation.slides|
      modifies this`presentation, this`selectedSlideIndex
      ensures Valid()
      ensures presentation == old(presentation) && selectedSlideIndex == index
    {
      var commands := Sidebar.Click(index);
      Dispatch(commands[0], "");
    }

    /** A click on the delete button of thumbnail `index` deletes that slide and nothing selects
        it: the selection follows the delete rule alone, whichever index was clicked. */
    method DeleteThumbnail(index: nat)
      requires Valid()
      modifies this`presentation, this`selectedSlideIndex
      ensures Valid()
      ensures old(|presentation.slides|) <= 1 ==>
        presentation == old(presentation) && selectedSlideIndex == old(selectedSlideIndex)
      ensures old(|presentation.slides|) > 1 && index < old(|presentation.slides|) ==>
        presentation.slides == old(presentation.slides[..index] + presentation.slides[index + 1..]) &&
        presentation.title == old(presentation.title) && presentation.template == old(presentation.template)
      ensures old(|presentation.slides|) > 1 ==>
        selectedSlideIndex == if old(selectedSlideIndex) == 0 then 0 else old(selectedSlideIndex) - 1
    {
      var commands := Sidebar.DeleteClick(index);
      RemoveAtSplice(presentation.slides, index);
      Dispatch(commands[0], "");
    }

    /** A drop on thumbnail `dropIndex` while `gate` tracks a drag: the reorder the gate issues,
        if any, is carried out; a drop without a drag or onto the dragged thumbnail changes
        nothing. */
    method DropOnThumbnail(gate: Sidebar.DragGate, dropIndex: nat)
      requires Valid() && dropIndex < |presentation.slides|
      requires gate.draggedIndex.Some? ==> gate.draggedIndex.value < |presentation.slides|
      modifies this`presentation, this`selectedSlideIndex, gate
      ensures Valid()
      ensures Sidebar.DropCommands(old(gate.draggedIndex), dropIndex) == [] ==>
        presentation == old(presentation) && selectedSlideIndex == old(selectedSlideIndex)
      ensures Sidebar.DropCommands(old(gate.draggedIndex), dropIndex) != [] ==>
        var drag := old(gate.draggedIndex).value;
        presentation.slides == Move(old(presentation.slides), drag, dropIndex) &&
        selectedSlideIndex == SelectionAfterMove(old(selectedSlideIndex), drag, dropIndex) &&
        presentation.slides[selectedSlideIndex] == old(presentation.slides[selectedSlideIndex])
    {
      var commands := gate.Drop(dropIndex);
      if commands != [] {
        MoveTracksSelection(presentation.slides, commands[0].dragIndex, dropIndex, selectedSlideIndex);
        Dispatch(commands[0], "");
      }
    }

    /** The refine dialog's Cancel button is wired to `onClose`: whatever the dialog holds, the
        request is dropped and the deck is as it was. */
    method RefineCancel(dialog: RefineModal.RefineDialog)
      requires Valid()
      modifies this`refineData
      ensures Valid()
      ensures presentation == old(presentation) && refineData == None
    {
      var confirmed, closeRequested := dialog.Cancel();
      assert confirmed.None?;  // so `handleRefineConfirm` is never reached from Cancel
      if closeRequested {
        RefineClose();
      }
    }

    /** The refine dialog's Replace button is wired to `handleRefineConfirm`: while it is enabled
        the text on show is written to the requested entry; while it is disabled nothing
        changes. */
    method RefineReplace(dialog: RefineModal.RefineDialog)
      requires Valid()
      requires refineData.Some? ==>
        0 <= refineData.value.slideIndex < |presentation.slides| &&
        refineData.value.contentIndex < |presentation.slides[refineData.value.slideIndex].content|
      modifies this`presentation, this`refineData
      ensures Valid()
      ensures !dialog.ReplaceEnabled() ==> presentation == old(presentation) && refineData == old(refineData)
      ensures dialog.ReplaceEnabled() && old(refineData).Some? ==> (refineData == None &&
        var RefineRequest(i, c, _) := old(refineData).value;
        var slide := old(presentation.slides[i]);
        presentation == old(presentation).(slides := old(presentation.slides)[i := slide.(content := AssignAt(slide.content, c, dialog.refinedText))]))
    {
      var confirmed := dialog.Replace();
      if confirmed.Some? {
        RefineConfirm(confirmed.value);
      }
    }

    /** The header's Present button and the playback view's exit. */
    method SetPresentationMode(on: bool)
      modifies this`isPresentationMode
      ensures isPresentationMode == on
    {
      isPresentationMode := on;
    }

    /** The animation class of the selected slide: its transition's class in TRANSITIONS, or ''
        when the slide has no transition or there is no selected slide. */
    function SelectedTransitionClass(): (c: string)
      reads this
      ensures selectedSlideIndex >= |presentation.slides| ==> c == ""
      ensures selectedSlideIndex < |presentation.slides| && presentation.slides[selectedSlideIndex].transition.None? ==> c == ""
      ensures selectedSlideIndex < |presentation.slides| && presentation.slides[selectedSlideIndex].transition.Some? ==>
        exists k :: 0 <= k < |TRANSITIONS| && TRANSITIONS[k].id == presentation.slides[selectedSlideIndex].transition.value &&
          c == TRANSITIONS[k].className
    {
      TransitionClassTable();
      if selectedSlideIndex < |presentation.slides| then
        var t := presentation.slides[selectedSlideIndex].transition;
        assert t.Some? ==> TRANSITIONS[TransitionRow(t.value)].id == t.value;
        TransitionClass(t)
      else ""
    }

    /** `handleExport`: hands the current deck to the chosen exporter; the PDF export needs the
        hidden render container and does nothing without it. Nothing in the editor changes. */
    method Export(format: ExportFormat, hasContainer: bool, failure: Option<string>) returns (outcome: Option<ExportService.ExportOutcome>)
      ensures format == Pdf && !hasContainer ==> outcome == None
      ensures format == Pdf && hasContainer ==> (outcome.Some? &&
        (failure.None? ==> outcome.value == ExportService.SavedPdf(ExportService.FileName(presentation.title, ".pdf"),
          if |presentation.slides| == 0 then [[]] else seq(|presentation.slides|, k => [k]))))
      ensures format == Pdf && hasContainer && failure.Some? ==>
        outcome == Some(ExportService.Reported("An error occurred while exporting to PDF: " + failure.value))
      ensures format == Pptx && failure.None? ==> (outcome.Some? && outcome.value.SavedPptx? &&
        outcome.value.fileName == ExportService.FileName(presentation.title, ".pptx") &&
        |outcome.value.slides| == |presentation.slides| &&
        forall k :: 0 <= k < |presentation.slides| ==> outcome.value.slides[k] == ExportService.SlidePlan(presentation.slides[k]))
      ensures format == Pptx && failure.Some? ==>
        outcome == Some(ExportService.Reported("An error occurred while exporting to PPTX: " + failure.value))
    {
      if format == Pdf {
        if hasContainer {
          var o := ExportService.ExportToPdf(presentation.title, |presentation.slides|, failure);
          outcome := Some(o);
        } else {
          outcome := None;
        }
      } else {
        var o := ExportService.ExportToPptx(presentation, failure);
        outcome := Some(o);
      }
    }
  }

  /** Lemma-level version of the selection rule: the selected slide is the same slide after any
      reorder of a deck, and every other slide keeps its relative order. */
  lemma ReorderKeepsSelectedSlide(slides: seq<Slide>, drag: nat, drop: nat, sel: nat)
    requires drag < |slides| && drop < |slides| && sel < |slides|
    ensures Move(slides, drag, drop)[SelectionAfterMove(sel, drag, drop)] == slides[sel]
    ensures multiset(Move(slides, drag, drop)) == multiset(slides)
    ensures RemoveAt(Move(slides, drag, drop), drop) == RemoveAt(slides, drag)
  {
    MoveTracksSelection(slides, drag, drop, sel);
    MovePermutes(slides, drag, drop);
    MoveKeepsOrder(slides, drag, drop);
  }

  /** As written, the confirm of a title refine writes element -1 of the content, which is no
      element: the slide, its title included, stays as it was. */
  lemma TitleRefineIsLost(s: Slide, refined: string)
    ensures s.(content := AssignAt(s.content, -1, refined)) == s
    ensures refined != s.title ==> s.(content := AssignAt(s.content, -1, refined)).title != refined
  {
  }

  /** With the intended confirm, refining any field of slide `i` and confirming the result puts
      the result in exactly that field: the stored text of the field's target is the new text. */
  method RefineFieldRoundTrip(deck: Presentation, i: nat, f: SlidePreview.Field, refined: string)
    requires i < |deck.slides| && f in SlidePreview.LayoutFields(deck.slides[i])
  {
    SlidePreview.FieldsShowStoredText(deck.slides[i]);
    var editor := new EditorState(deck);
    var request := SlidePreview.RefineFor(i, f);
    editor.RefineClick(request.slideIndex, request.contentIndex, request.text);
    editor.RefineConfirmIntended(refined);
    assert SlidePreview.Stored(editor.presentation.slides[i], f.target) == Some(refined);
  }

  /** The controls drawn on a hidden copy of a slide that the PDF export captures, as Editor.tsx
      renders them: `isExporting` is not passed, so every copy is an editable canvas. */
  function ExportCopyControlsAsWritten(s: Slide): (cs: set<SlidePreview.Control>)
    ensures cs != {}
    ensures !SlidePreview.HasImage(s) ==> SlidePreview.AddImageButton in cs
    ensures SlidePreview.ListsBullets(s.layout) ==> SlidePreview.AddBullet in cs
  {
    SlidePreview.Controls(s, false, false)
  }

  /** A freshly added slide, copied for the PDF as written, carries the add-image button and the
      add-bullet link, which are drawn without any hover condition and so end up in the file. */
  lemma NewSlideExportCopyShowsButtons(id: string)
    ensures SlidePreview.AddImageButton in ExportCopyControlsAsWritten(NewSlide(id))
    ensures SlidePreview.AddBullet in ExportCopyControlsAsWritten(NewSlide(id))
  {
    assert !SlidePreview.HasImage(NewSlide(id));
    assert SlidePreview.ListsBullets(NewSlide(id).layout);
  }

  /** The hidden copies rendered with `isExporting`, as the export evidently intends: read-only,
      with no control on any slide. */
  function ExportCopyControls(s: Slide): (cs: set<SlidePreview.Control>)
    ensures cs == {}
  {
    SlidePreview.Controls(s, true, false)
  }

  /** From a three-slide deck, adding a slide gives four slides with the new one selected, and
      deleting it again gives three slides with the selection on the last one. */
  method AddThenDelete(deck: Presentation, newId: string)
    requires |deck.slides| == 3
  {
    var editor := new EditorState(deck);
    editor.AddSlide(newId);
    assert |editor.presentation.slides| == 4 && editor.selectedSlideIndex == 3;
    editor.DeleteSlide(3);
    assert |editor.presentation.slides| == 3 && editor.selectedSlideIndex == 2;
    assert editor.presentation.slides == deck.slides;
  }

  /** A refine dialog opened for slide 0's title and cancelled before its result arrives leaves
      the deck as it was: the late confirm finds no open request. */
  method DiscardOnClose(deck: Presentation, lateResult: string)
    requires |deck.slides| > 0
  {
    var editor := new EditorState(deck);
    editor.RefineClick(0, -1, deck.slides[0].title);
    var dialog := new RefineModal.RefineDialog();
    editor.RefineCancel(dialog);
    editor.RefineConfirm(lateResult);
    assert editor.presentation == deck;
  }
}

=== FILE: edits.dfy ===
/** The two copy-on-write array edits the components share: copy an array and assign one element
    (`const c = [...a]; c[i] = v`), and drop one position (`a.filter((_, j) => j !== i)`). */
module Edits {

  /** Copy-and-assign. A negative index writes a non-index property in JavaScript and leaves every
      element as it was; the callers never write past the end, which would grow the array. */
  function AssignAt<T>(s: seq<T>, i: int, v: T): (r: seq<T>)
    requires i < |s|
    ensures |r| == |s|
    ensures forall k :: 0 <= k < |s| ==> r[k] == (if k == i then v else s[k])
  {
    if 0 <= i then s[i := v] else s
  }

  /** `s.filter((_, j) => j !== i)`, written as the filter runs: it walks the elements, numbering
      them from 0, and keeps every one whose number is not `i`. */
  function RemoveAt<T>(s: seq<T>, i: int): seq<T>
    decreases |s|
  {
    if s == [] then []
    else (if i == 0 then [] else [s[0]]) + RemoveAt(s[1..], i - 1)
  }

  /** Filtering out an index in range removes exactly that element and keeps the others in
      order; filtering out any other index keeps everything. */
  lemma {:induction false} RemoveAtSplice<T>(s: seq<T>, i: int)
    ensures 0 <= i < |s| ==> RemoveAt(s, i) == s[..i] + s[i + 1..]
    ensures !(0 <= i < |s|) ==> RemoveAt(s, i) == s
    decreases |s|
  {
    if s != [] {
      RemoveAtSplice(s[1..], i - 1);
      if 0 < i < |s| {
        assert s[1..][..i - 1] == s[1..i];
        assert s[1..][i..] == s[i + 1..];
        assert [s[0]] + s[1..i] == s[..i];
      } else if i == 0 {
        assert s[1..] == s[i + 1..];
      } else {
        assert [s[0]] + s[1..] == s;
      }
    }
  }

  /** Removing an element in range: one fewer element, each later element moves down by one. */
  lemma RemoveAtIndex<T>(s: seq<T>, i: int)
    requires 0 <= i < |s|
    ensures |RemoveAt(s, i)| == |s| - 1
    ensures forall k :: 0 <= k < |s| - 1 ==> RemoveAt(s, i)[k] == s[if k < i then k else k + 1]
    ensures multiset(RemoveAt(s, i)) + multiset{s[i]} == multiset(s)
  {
    RemoveAtSplice(s, i);
    assert s == s[..i] + [s[i]] + s[i + 1..];
  }
}

=== FILE: export_service.dfy ===
/** The two exporters (services/exportService.ts): the file names they save under, and the
    PPTX document plan — one slide per deck slide, each a list of text boxes chosen by layout. */
module ExportService {
  import opened Wrappers
  import opened Types
  import opened Text
  import SlidePreview

  /** `${title.replace(/ /g, '_')}${extension}`: every space of the title becomes an underscore,
      every other character and the extension are kept. */
  function FileName(title: string, extension: string): (r: string)
    ensures |r| == |title| + |extension| && r[|title|..] == extension
    ensures forall k :: 0 <= k < |title| ==> r[k] == (if title[k] == ' ' then '_' else title[k])
  {
    ReplaceSpaces(title) + extension
  }

  /** The saved names contain no space at all. */
  lemma FileNamesHaveNoSpaces(title: string)
    ensures ' ' !in FileName(title, ".pdf") && ' ' !in FileName(title, ".pptx")
  {
    forall ext | ext == ".pdf" || ext == ".pptx" ensures ' ' !in FileName(title, ext) {
      var r := FileName(title, ext);
      forall k | 0 <= k < |r| ensures r[k] != ' ' {
        if k >= |title| {
          assert r[k] == r[|title|..][k - |title|] == ext[k - |title|];
        }
      }
    }
  }

  /** What `getLibrary` rejects with when a library never appears on the page. */
  function LibraryNotFound(name: string): string {
    name + " library not found. Please check your internet connection and try again."
  }

  /** The text passed to `addText`: one string, or an array drawn as a list. */
  datatype BoxText = Line(text: string) | Lines(items: seq<string>)

  /** One `addText` call; positions and box sizes are left out, font size, weight, bullets,
      centring and colour are kept. */
  datatype TextBox = TextBox(text: BoxText, fontSize: nat, bold: bool, bullet: bool, centered: bool, color: Option<string>)

  function TitleBox(title: string, fontSize: nat, centered: bool): TextBox {
    TextBox(Line(title), fontSize, true, false, centered, None)
  }

  function ListBox(items: seq<string>, fontSize: nat): TextBox {
    TextBox(Lines(items), fontSize, false, true, false, None)
  }

  /** The boxes added to one PPTX slide, by layout. */
  function SlidePlan(s: Slide): (boxes: seq<TextBox>)
    ensures |boxes| > 0 && boxes[0].text == Line(s.title)
  {
    match s.layout
    case TitleSlide =>
      [TitleBox(s.title, 44, true)] +
      (if SlidePreview.HasSubtitle(s) then [TextBox(Line(s.content[0]), 24, false, false, true, None)] else [])
    case SectionHeader =>
      [TitleBox(s.title, 36, true)] +
      (if SlidePreview.HasSubtitle(s) then [TextBox(Line(s.content[0]), 20, false, false, true, Some("666666"))] else [])
    case TwoColumn =>
      var (col1, col2) := SlidePreview.Columns(s.content);
      [TitleBox(s.title, 32, false), ListBox(col1, 18), ListBox(col2, 18)]
    case _ =>
      [TitleBox(s.title, 32, false), ListBox(s.content, 20)]
  }

  /** Every piece of text a plan exports. */
  function ExportedText(boxes: seq<TextBox>): seq<string> {
    if boxes == [] then []
    else (match boxes[0].text case Line(t) => [t] case Lines(items) => items) + ExportedText(boxes[1..])
  }

  /** The layouts that list their bullets export the title and then every content entry, in
      order (TWO_COLUMN through the same ceil(n/2) split as the canvas); the title layouts export
      the title and at most `content[0]`, and only when it is non-empty. */
  lemma SlidePlanText(s: Slide)
    ensures SlidePreview.ListsBullets(s.layout) ==> ExportedText(SlidePlan(s)) == [s.title] + s.content
    ensures (s.layout == TitleSlide || s.layout == SectionHeader) ==>
      ExportedText(SlidePlan(s)) == [s.title] + (if SlidePreview.HasSubtitle(s) then [s.content[0]] else [])
    ensures s.layout == Blank ==> ExportedText(SlidePlan(s)) == [s.title] + s.content
  {
    var b := SlidePlan(s);
    if s.layout == TwoColumn {
      var (col1, col2) := SlidePreview.Columns(s.content);
      assert ExportedText(b[2..]) == col2 + ExportedText(b[3..]);
      assert ExportedText(b[1..]) == col1 + ExportedText(b[2..]);
    } else if s.layout == TitleSlide || s.layout == SectionHeader {
      if SlidePreview.HasSubtitle(s) {
        assert ExportedText(b[1..]) == [s.content[0]] + ExportedText(b[2..]);
      }
    } else {
      assert ExportedText(b[1..]) == s.content + ExportedText(b[2..]);
    }
  }

  /** The two TWO_COLUMN boxes are the canvas's two columns: `col1` has ceil(n/2) entries and
      `col1 ++ col2` is the content. */
  lemma TwoColumnPlanSplit(s: Slide)
    requires s.layout == TwoColumn
    ensures |SlidePlan(s)| == 3
    ensures SlidePlan(s)[1].text == Lines(SlidePreview.Columns(s.content).0)
    ensures SlidePlan(s)[2].text == Lines(SlidePreview.Columns(s.content).1)
    ensures SlidePlan(s)[1].text.items + SlidePlan(s)[2].text.items == s.content
    ensures |SlidePlan(s)[1].text.items| == SlidePreview.MiddleIndex(|s.content|)
  {
  }

  /** What an export ends in: a file saved under a name, or an alert carrying the error. */
  datatype ExportOutcome =
    | SavedPptx(fileName: string, slides: seq<seq<TextBox>>)
    | SavedPdf(fileName: string, pages: seq<seq<nat>>)
    | Reported(alert: string)

  /** `exportToPptx`: builds one PPTX slide per deck slide, in deck order, and saves the file;
      `failure` is the message of whatever the library loading threw, which is caught and
      reported instead of propagating. */
  method ExportToPptx(presentation: Presentation, failure: Option<string>) returns (outcome: ExportOutcome)
    ensures failure.Some? ==> outcome == Reported("An error occurred while exporting to PPTX: " + failure.value)
    ensures failure.None? ==>
      outcome.SavedPptx? && outcome.fileName == FileName(presentation.title, ".pptx") &&
      |outcome.slides| == |presentation.slides| &&
      forall k :: 0 <= k < |presentation.slides| ==> outcome.slides[k] == SlidePlan(presentation.slides[k])
  {
    if failure.Some? {
      return Reported("An error occurred while exporting to PPTX: " + failure.value);
    }
    var pptx: seq<seq<TextBox>> := [];
    var i := 0;
    while i < |presentation.slides|
      invariant 0 <= i <= |presentation.slides|
      invariant |pptx| == i
      invariant forall k :: 0 <= k < i ==> pptx[k] == SlidePlan(presentation.slides[k])
    {
      pptx := pptx + [SlidePlan(presentation.slides[i])];
      i := i + 1;
    }
    outcome := SavedPptx(FileName(presentation.title, ".pptx"), pptx);
  }

  /** `exportToPdf`: jsPDF opens with one blank page; slide element `i` is rasterised and drawn
      on the current page, after adding a new page for every element but the first. Pages are
      recorded as the list of element numbers drawn on them; the rasterising itself is left out.
      A failure is caught and reported instead of propagating. */
  method ExportToPdf(fileName: string, slideElements: nat, failure: Option<string>) returns (outcome: ExportOutcome)
    ensures failure.Some? ==> outcome == Reported("An error occurred while exporting to PDF: " + failure.value)
    ensures failure.None? ==> outcome.SavedPdf? && outcome.fileName == FileName(fileName, ".pdf")
    ensures failure.None? && slideElements == 0 ==> outcome.pages == [[]]
    ensures failure.None? && slideElements > 0 ==>
      |outcome.pages| == slideElements && forall k :: 0 <= k < slideElements ==> outcome.pages[k] == [k]
  {
    if failure.Some? {
      return Reported("An error occurred while exporting to PDF: " + failure.value);
    }
    var pdf: seq<seq<nat>> := [[]];
    var i := 0;
    while i < slideElements
      invariant 0 <= i <= slideElements
      invariant i == 0 ==> pdf == [[]]
      invariant i > 0 ==> |pdf| == i && forall k :: 0 <= k < i ==> pdf[k] == [k]
    {
      if i > 0 {
        pdf := pdf + [[]];
      }
      pdf := pdf[|pdf| - 1 := pdf[|pdf| - 1] + [i]];
      i := i + 1;
    }
    outcome := SavedPdf(FileName(fileName, ".pdf"), pdf);
  }
}

=== FILE: file_parser.dfy ===
/** Upload reading (services/fileParserService.ts): which reader branch a file takes, by its
    lower-cased name or its MIME type, and how each branch turns what the browser and the
    libraries delivered into the document text or an error message. */
module FileParser {
  import opened Wrappers
  import opened Text

  /** The reader branches, in the order they are tried. */
  datatype FileKind = PlainText | Pdf | Docx | Unsupported

  const DOCX_MIME := "application/vnd.openxmlformats-officedocument.wordprocessingml.document"
  const UNSUPPORTED := "Unsupported file type. Please upload a .txt, .md, .pdf, or .docx file."

  predicate IsTextFile(lowerName: string, mimeType: string) {
    EndsWith(lowerName, ".txt") || mimeType == "text/plain" || EndsWith(lowerName, ".md") || mimeType == "text/markdown"
  }

  predicate IsPdfFile(lowerName: string, mimeType: string) {
    EndsWith(lowerName, ".pdf") || mimeType == "application/pdf"
  }

  predicate IsDocxFile(lowerName: string, mimeType: string) {
    EndsWith(lowerName, ".docx") || mimeType == DOCX_MIME || EndsWith(lowerName, ".doc")
  }

  /** The branch `parseFile` takes: the name is lower-cased first, and the first test that
      matches wins. */
  function Classify(name: string, mimeType: string): (k: FileKind)
    ensures var n := ToLowerCase(name);
      && (k == PlainText <==> IsTextFile(n, mimeType))
      && (k == Pdf <==> !IsTextFile(n, mimeType) && IsPdfFile(n, mimeType))
      && (k == Docx <==> !IsTextFile(n, mimeType) && !IsPdfFile(n, mimeType) && IsDocxFile(n, mimeType))
      && (k == Unsupported <==> !IsTextFile(n, mimeType) && !IsPdfFile(n, mimeType) && !IsDocxFile(n, mimeType))
  {
    var n := ToLowerCase(name);
    if IsTextFile(n, mimeType) then PlainText
    else if IsPdfFile(n, mimeType) then Pdf
    else if IsDocxFile(n, mimeType) then Docx
    else Unsupported
  }

  lemma LowerCharIdempotent(c: char)
    ensures LowerChar(LowerChar(c)) == LowerChar(c)
  {
  }

  /** Lower-casing twice is lower-casing once. */
  lemma ToLowerCaseIdempotent(s: string)
    ensures ToLowerCase(ToLowerCase(s)) == ToLowerCase(s)
  {
    var once := ToLowerCase(s);
    forall k | 0 <= k < |s| ensures ToLowerCase(once)[k] == once[k] {
      LowerCharIdempotent(s[k]);
    }
  }

  /** Matching ignores case: two names that differ only in the case of their letters take the
      same branch, and a name classifies like its lower-cased form. */
  lemma ClassifyIgnoresCase(a: string, b: string, mimeType: string)
    ensures ToLowerCase(a) == ToLowerCase(b) ==> Classify(a, mimeType) == Classify(b, mimeType)
    ensures Classify(ToLowerCase(a), mimeType) == Classify(a, mimeType)
  {
    ToLowerCaseIdempotent(a);
  }

  /** An upper-case ".DOC" name goes to the DOCX reader. */
  lemma UpperCaseDocIsDocx()
    ensures Classify("A.DOC", "") == Docx
  {
    var n := ToLowerCase("A.DOC");
    assert n == "a.doc";
    assert n[|n| - 4..] == ".doc";
    assert n[|n| - 4..] != ".txt" && n[|n| - 3..] != ".md" && n[|n| - 4..] != ".pdf";
  }

  /** A ".txt" name is read as text even when the browser calls the file a PDF. */
  lemma TextNameWinsOverPdfType()
    ensures Classify("a.txt", "application/pdf") == PlainText
  {
    var n := ToLowerCase("a.txt");
    assert n == "a.txt";
    assert n[|n| - 4..] == ".txt";
  }

  /** How the FileReader finished: with a string (text reads), with a buffer (binary reads),
      with an empty result, or through `onerror`. */
  datatype ReadOutcome = ReadString(text: string) | ReadBuffer | ReadNothing | ReadError

  /** `event.target.result` is truthy. */
  predicate HasResult(r: ReadOutcome) {
    r.ReadBuffer? || (r.ReadString? && r.text != "")
  }

  /** The PDF text: for each page in order, its item strings joined by one space, then a line
      break. */
  function PagesText(pages: seq<seq<string>>): string {
    if pages == [] then "" else PagesText(pages[..|pages| - 1]) + Join(pages[|pages| - 1], " ") + "\n"
  }

  /** The text of a document split in two is the text of the first part followed by that of the
      second. */
  lemma {:induction false} PagesTextAppend(a: seq<seq<string>>, b: seq<seq<string>>)
    ensures PagesText(a + b) == PagesText(a) + PagesText(b)
    decreases |b|
  {
    if b == [] {
      assert a + b == a;
    } else {
      var b' := b[..|b| - 1];
      assert (a + b)[..|a + b| - 1] == a + b';
      PagesTextAppend(a, b');
    }
  }

  /** Counts the line breaks of a string. */
  function LineBreaks(s: string): nat {
    if s == [] then 0 else LineBreaks(s[..|s| - 1]) + (if s[|s| - 1] == '\n' then 1 else 0)
  }

  lemma {:induction false} LineBreaksAppend(s: string, t: string)
    ensures LineBreaks(s + t) == LineBreaks(s) + LineBreaks(t)
    decreases |t|
  {
    if t == [] {
      assert s + t == s;
    } else {
      assert (s + t)[..|s + t| - 1] == s + t[..|t| - 1];
      LineBreaksAppend(s, t[..|t| - 1]);
    }
  }

  lemma {:induction false} NoLineBreaks(s: string)
    requires '\n' !in s
    ensures LineBreaks(s) == 0
  {
    if s != [] {
      assert s[..|s| - 1] + [s[|s| - 1]] == s;
      NoLineBreaks(s[..|s| - 1]);
    }
  }

  /** When no item holds a line break, the text has exactly one line per page. */
  lemma {:induction false} OneLinePerPage(pages: seq<seq<string>>)
    requires forall p, k :: 0 <= p < |pages| && 0 <= k < |pages[p]| ==> '\n' !in pages[p][k]
    ensures LineBreaks(PagesText(pages)) == |pages|
  {
    if pages != [] {
      var last := pages[|pages| - 1];
      OneLinePerPage(pages[..|pages| - 1]);
      JoinAvoids(last, " ", '\n');
      NoLineBreaks(Join(last, " "));
      LineBreaksAppend(PagesText(pages[..|pages| - 1]), Join(last, " "));
      LineBreaksAppend(PagesText(pages[..|pages| - 1]) + Join(last, " "), "\n");
      assert LineBreaks("\n") == 1 by {
        assert "\n"[..0] == "";
      }
    }
  }

  /** The page loop: `textContent += items.join(' ') + '\n'` for pages 1 to numPages. */
  method ExtractPdfText(pages: seq<seq<string>>) returns (textContent: string)
    ensures textContent == PagesText(pages)
  {
    textContent := "";
    var i := 0;
    while i < |pages|
      invariant 0 <= i <= |pages|
      invariant textContent == PagesText(pages[..i])
    {
      assert pages[..i + 1][..i] == pages[..i];
      textContent := textContent + Join(pages[i], " ") + "\n";
      i := i + 1;
    }
    assert pages[..|pages|] == pages;
  }

  /** A file as the parser sees it, with what the browser and the libraries delivered:
      `pdfPages` is the item strings of every page (`None` when pdf.js threw), `docxText` the
      text mammoth extracted (`None` when it threw). */
  datatype FileInput = FileInput(
    name: string,
    mimeType: string,
    read: ReadOutcome,
    pdfPages: Option<seq<seq<string>>>,
    docxText: Option<string>)

  /** What `parseFile` settles with: the text of the document or the message it rejects with. */
  function Parse(file: FileInput): (r: Result<string, string>)
    ensures var kind := Classify(file.name, file.mimeType);
      && (kind == Unsupported ==> r == Failure(UNSUPPORTED))
      && (kind != Unsupported && file.read.ReadError? ==> r == Failure("Error reading the file."))
      && (kind == PlainText && file.read.ReadString? ==> r == Success(file.read.text))
      && (kind == PlainText && (file.read.ReadBuffer? || file.read.ReadNothing?) ==> r == Failure("Failed to read file content."))
      && (kind == Pdf && !file.read.ReadError? && !HasResult(file.read) ==> r == Failure("Failed to read PDF file."))
      && (kind == Pdf && HasResult(file.read) && file.pdfPages.None? ==>
            r == Failure("Could not parse the PDF file. It might be corrupted or protected."))
      && (kind == Pdf && HasResult(file.read) && file.pdfPages.Some? ==> r == Success(PagesText(file.pdfPages.value)))
      && (kind == Docx && !file.read.ReadError? && !HasResult(file.read) ==> r == Failure("Failed to read DOCX file."))
      && (kind == Docx && HasResult(file.read) && file.docxText.None? ==> r == Failure("Could not parse the DOCX file."))
      && (kind == Docx && HasResult(file.read) && file.docxText.Some? ==> r == Success(file.docxText.value))
  {
    var kind := Classify(file.name, file.mimeType);
    if kind == Unsupported then Failure(UNSUPPORTED)
    else if file.read.ReadError? then Failure("Error reading the file.")
    else match kind
      case PlainText =>
        if file.read.ReadString? then Success(file.read.text) else Failure("Failed to read file content.")
      case Pdf =>
        if !HasResult(file.read) then Failure("Failed to read PDF file.")
        else if file.pdfPages.None? then Failure("Could not parse the PDF file. It might be corrupted or protected.")
        else Success(PagesText(file.pdfPages.value))
      case Docx =>
        if !HasResult(file.read) then Failure("Failed to read DOCX file.")
        else if file.docxText.None? then Failure("Could not parse the DOCX file.")
        else Success(file.docxText.value)
  }

  /** `parseFile`, with the PDF page loop run as written. */
  method ParseFile(file: FileInput) returns (r: Result<string, string>)
    ensures r == Parse(file)
  {
    var kind := Classify(file.name, file.mimeType);
    if kind == Unsupported {
      return Failure(UNSUPPORTED);
    }
    if file.read.ReadError? {
      return Failure("Error reading the file.");
    }
    match kind
    case PlainText =>
      r := if file.read.ReadString? then Success(file.read.text) else Failure("Failed to read file content.");
    case Pdf =>
      if !HasResult(file.read) {
        r := Failure("Failed to read PDF file.");
      } else if file.pdfPages.None? {
        r := Failure("Could not parse the PDF file. It might be corrupted or protected.");
      } else {
        var text := ExtractPdfText(file.pdfPages.value);
        r := Success(text);
      }
    case Docx =>
      if !HasResult(file.read) {
        r := Failure("Failed to read DOCX file.");
      } else if file.docxText.None? {
        r := Failure("Could not parse the DOCX file.");
      } else {
        r := Success(file.docxText.value);
      }
  }
}

=== FILE: outline_editor.dfy ===
/** The outline review screen (components/OutlineEditor.tsx): a draft slide list whose titles and
    bullet texts can be edited in place before it is confirmed. */
module OutlineEditor {
  import opened Types
  import opened Edits

  /** The draft after a title edit: `outline[index].title` becomes `value`; nothing else moves. */
  function WithTitle(outline: seq<Slide>, index: nat, value: string): (r: seq<Slide>)
    requires index < |outline|
    ensures |r| == |outline|
    ensures r[index].title == value
    ensures r[index] == outline[index].(title := value)
    ensures forall k :: 0 <= k < |outline| && k != index ==> r[k] == outline[k]
  {
    outline[index := outline[index].(title := value)]
  }

  /** The draft after a content edit: `outline[slideIndex].content[contentIndex]` becomes
      `value`; a negative `contentIndex` writes no element. */
  function WithContent(outline: seq<Slide>, slideIndex: nat, contentIndex: int, value: string): (r: seq<Slide>)
    requires slideIndex < |outline| && contentIndex < |outline[slideIndex].content|
    ensures |r| == |outline|
    ensures r[slideIndex] == outline[slideIndex].(content := r[slideIndex].content)
    ensures |r[slideIndex].content| == |outline[slideIndex].content|
    ensures 0 <= contentIndex ==> r[slideIndex].content[contentIndex] == value
    ensures forall j :: 0 <= j < |outline[slideIndex].content| && j != contentIndex ==>
      r[slideIndex].content[j] == outline[slideIndex].content[j]
    ensures forall k :: 0 <= k < |outline| && k != slideIndex ==> r[k] == outline[k]
  {
    var newContent := AssignAt(outline[slideIndex].content, contentIndex, value);
    outline[slideIndex := outline[slideIndex].(content := newContent)]
  }

  /** A title edit and a content edit never interfere: applied in either order they give the
      same draft. */
  lemma TitleAndContentEditsCommute(outline: seq<Slide>, i: nat, title: string, j: nat, c: int, text: string)
    requires i < |outline| && j < |outline| && c < |outline[j].content|
    ensures WithContent(WithTitle(outline, i, title), j, c, text) == WithTitle(WithContent(outline, j, c, text), i, title)
  {
    var a := WithContent(WithTitle(outline, i, title), j, c, text);
    var b := WithTitle(WithContent(outline, j, c, text), i, title);
    forall k | 0 <= k < |outline| ensures a[k] == b[k] {
      if k == i && k == j {
        assert a[k].content == b[k].content;
      }
    }
  }

  /** The later of two edits to the same title wins. */
  lemma LastTitleEditWins(outline: seq<Slide>, i: nat, first: string, second: string)
    requires i < |outline|
    ensures WithTitle(WithTitle(outline, i, first), i, second) == WithTitle(outline, i, second)
  {
  }

  /** Writing a title back to the value it has changes nothing. */
  lemma TitleEditOfSameValue(outline: seq<Slide>, i: nat)
    requires i < |outline|
    ensures WithTitle(outline, i, outline[i].title) == outline
  {
  }

  class OutlineState {
    var outline: seq<Slide>

    /** The draft starts as the outline it was given. */
    constructor (initialOutline: seq<Slide>)
      ensures outline == initialOutline
    {
      outline := initialOutline;
    }

    /** `handleTitleChange` */
    method SetTitle(index: nat, value: string)
      requires index < |outline|
      modifies this
      ensures outline == WithTitle(old(outline), index, value)
    {
      var newOutline := outline;
      newOutline := newOutline[index := newOutline[index].(title := value)];
      outline := newOutline;
    }

    /** `handleContentChange` */
    method SetContent(slideIndex: nat, contentIndex: int, value: string)
      requires slideIndex < |outline| && contentIndex < |outline[slideIndex].content|
      modifies this
      ensures outline == WithContent(old(outline), slideIndex, contentIndex, value)
    {
      var newOutline := outline;
      var newContent := newOutline[slideIndex].content;
      if 0 <= contentIndex {
        newContent := newContent[contentIndex := value];
      }
      newOutline := newOutline[slideIndex := newOutline[slideIndex].(content := newContent)];
      outline := newOutline;
    }

    /** The confirm button hands over the draft exactly as held, and changes nothing. */
    method Confirm() returns (finalOutline: seq<Slide>)
      ensures finalOutline == outline
    {
      finalOutline := outline;
    }
  }
}

=== FILE: presentation_view.dfy ===
/** Full-screen playback (components/PresentationView.tsx): a current index stepped by keys and
    buttons, clamped to the deck, over a read-only rendering of the deck. */
module PresentationView {
  import opened Types
  import SlidePreview

  /** Next: `Math.min(i + 1, n - 1)`. */
  function NextIndex(i: int, n: nat): (r: int)
    ensures r <= i + 1 && r <= n - 1
    ensures r == i + 1 || r == n - 1
  {
    if i + 1 < n - 1 then i + 1 else n - 1
  }

  /** Previous: `Math.max(i - 1, 0)`. */
  function PrevIndex(i: int): (r: int)
    ensures r >= i - 1 && r >= 0
    ensures r == i - 1 || r == 0
  {
    if i - 1 > 0 then i - 1 else 0
  }

  /** On a deck of at least one slide both steps keep the index on a slide. */
  lemma StepsStayOnDeck(i: int, n: nat)
    requires n >= 1 && 0 <= i < n
    ensures 0 <= NextIndex(i, n) < n && 0 <= PrevIndex(i) < n
  {
  }

  /** Next moves one forward except on the last slide, where it stays; Previous moves one back
      except on the first, where it stays. */
  lemma StepsAreNoOpsExactlyAtTheEnds(i: int, n: nat)
    requires n >= 1 && 0 <= i < n
    ensures NextIndex(i, n) == i <==> i == n - 1
    ensures NextIndex(i, n) != i ==> NextIndex(i, n) == i + 1
    ensures PrevIndex(i) == i <==> i == 0
    ensures PrevIndex(i) != i ==> PrevIndex(i) == i - 1
  {
  }

  /** Previous then Next returns to a slide that is not the first; Next then Previous returns to
      one that is not the last. */
  lemma StepsUndo(i: int, n: nat)
    requires n >= 1 && 0 <= i < n
    ensures i > 0 ==> NextIndex(PrevIndex(i), n) == i
    ensures i < n - 1 ==> PrevIndex(NextIndex(i, n)) == i
  {
  }

  /** The keys the view listens to. */
  datatype Key = ArrowRight | Space | ArrowLeft | Escape | OtherKey(name: string)

  class Playback {
    var currentIndex: int
    const slideCount: nat

    /** On a non-empty deck the index is on a slide. */
    ghost predicate Valid()
      reads this
    {
      slideCount >= 1 ==> 0 <= currentIndex < slideCount
    }

    /** Playback starts at the first slide. */
    constructor (presentation: Presentation)
      ensures Valid()
      ensures currentIndex == 0 && slideCount == |presentation.slides|
    {
      currentIndex := 0;
      slideCount := |presentation.slides|;
    }

    /** The Previous button is disabled exactly on the first slide. */
    function PrevDisabled(): bool
      reads this
    {
      currentIndex == 0
    }

    /** The Next button is disabled exactly on the last slide. */
    function NextDisabled(): bool
      reads this
    {
      currentIndex == slideCount - 1
    }

    /** The keydown handler: ArrowRight and Space step forward, ArrowLeft steps back, Escape
        asks to leave; any other key changes nothing. */
    method HandleKey(key: Key) returns (exit: bool)
      requires Valid()
      modifies this
      ensures Valid()
      ensures exit <==> key == Escape
      ensures (key == ArrowRight || key == Space) ==> currentIndex == NextIndex(old(currentIndex), slideCount)
      ensures key == ArrowLeft ==> currentIndex == PrevIndex(old(currentIndex))
      ensures (key == Escape || key.OtherKey?) ==> currentIndex == old(currentIndex)
    {
      exit := false;
      if key == ArrowRight || key == Space {
        currentIndex := NextIndex(currentIndex, slideCount);
      } else if key == ArrowLeft {
        currentIndex := PrevIndex(currentIndex);
      } else if key == Escape {
        exit := true;
      }
    }

    /** The Previous button; disabled it does nothing, and enabled it is the same step as ArrowLeft. */
    method PrevButton()
      requires Valid()
      modifies this
      ensures Valid()
      ensures currentIndex == (if old(PrevDisabled()) then old(currentIndex) else PrevIndex(old(currentIndex)))
      ensures slideCount >= 1 && !old(PrevDisabled()) ==> currentIndex == old(currentIndex) - 1
    {
      if !PrevDisabled() {
        currentIndex := PrevIndex(currentIndex);
      }
    }

    /** The Next button; disabled it does nothing, and enabled it is the same step as ArrowRight. */
    method NextButton()
      requires Valid()
      modifies this
      ensures Valid()
      ensures currentIndex == (if old(NextDisabled()) then old(currentIndex) else NextIndex(old(currentIndex), slideCount))
      ensures slideCount >= 1 && !old(NextDisabled()) ==> currentIndex == old(currentIndex) + 1
    {
      if !NextDisabled() {
        currentIndex := NextIndex(currentIndex, slideCount);
      }
    }
  }

  /** The slide on show is rendered exporting and presenting, so it offers no control at all. */
  lemma PlaybackIsReadOnly(s: Slide)
    ensures SlidePreview.Controls(s, true, true) == {}
  {
  }

  /** The animation class of the slide on show. */
  function CurrentTransitionClass(presentation: Presentation, currentIndex: int): (c: string)
    ensures !(0 <= currentIndex < |presentation.slides|) ==> c == ""
    ensures 0 <= currentIndex < |presentation.slides| && presentation.slides[currentIndex].transition.Some? ==>
      c == TRANSITIONS[TransitionRow(presentation.slides[currentIndex].transition.value)].className
    ensures 0 <= currentIndex < |presentation.slides| && presentation.slides[currentIndex].transition.None? ==> c == ""
  {
    TransitionClassTable();
    if 0 <= currentIndex < |presentation.slides| then TransitionClass(presentation.slides[currentIndex].transition) else ""
  }
}

=== FILE: refine_modal.dfy ===
/** The refine dialog (components/RefineModal.tsx): preview text, loading flag and error, driven
    by the opening effect and the chunk, resolve and reject callbacks of one refine call. */
module RefineModal {
  import opened Wrappers

  /** `err.message || 'Failed to refine text.'`: an absent or empty message falls back. */
  function ErrorText(message: Option<string>): (r: string)
    ensures r != ""
    ensures message.Some? && message.value != "" ==> r == message.value
    ensures (message.None? || message.value == "") ==> r == "Failed to refine text."
  {
    if message.Some? && message.value != "" then message.value else "Failed to refine text."
  }

  /** What the refined panel shows. */
  datatype Panel = Refining | ErrorShown(message: string) | Preview(text: string)

  /** How the call the dialog started ended. */
  datatype Settlement = Resolved(finalText: string) | Rejected(message: Option<string>)

  class RefineDialog {
    var refinedText: string
    var isLoading: bool
    var error: Option<string>

    /** An error is only ever shown once loading is over. */
    ghost predicate Valid()
      reads this
    {
      error.Some? ==> !isLoading
    }

    /** The dialog mounts with empty text, loading and no error; the opening effect then resets
        the same three values before it starts the call. */
    constructor ()
      ensures Valid()
      ensures refinedText == "" && isLoading && error == None
    {
      refinedText := "";
      isLoading := true;
      error := None;
    }

    /** The opening effect. */
    method Open()
      modifies this
      ensures Valid()
      ensures refinedText == "" && isLoading && error == None
    {
      isLoading := true;
      error := None;
      refinedText := "";
    }

    /** `handleChunk`: the snapshot replaces the preview and loading ends. The handler tests the
        loading flag it captured when the effect ran, which is always true, so it always clears
        the flag. */
    method Chunk(textChunk: string)
      requires Valid()
      modifies this
      ensures Valid()
      ensures refinedText == textChunk && !isLoading && error == old(error)
    {
      isLoading := false;
      refinedText := textChunk;
    }

    /** The call settled: a result overrides whatever the last chunk showed; a failure shows its
        message. Either way loading ends. */
    method Settle(outcome: Settlement)
      requires Valid()
      modifies this
      ensures Valid()
      ensures !isLoading
      ensures outcome.Resolved? ==> refinedText == outcome.finalText && error == old(error)
      ensures outcome.Rejected? ==> refinedText == old(refinedText) && error == Some(ErrorText(outcome.message))
    {
      match outcome
      case Resolved(finalText) =>
        refinedText := finalText;
        isLoading := false;
      case Rejected(message) =>
        error := Some(ErrorText(message));
        isLoading := false;
    }

    /** Replace is disabled while loading or when an error is shown. */
    function ReplaceEnabled(): bool
      reads this
    {
      !isLoading && error.None?
    }

    /** The panel: the loading note, else the error, else the preview. */
    function Shown(): (p: Panel)
      reads this
      ensures p.Preview? <==> ReplaceEnabled()
      ensures p.Preview? ==> p.text == refinedText
    {
      if isLoading then Refining
      else if error.Some? then ErrorShown(error.value)
      else Preview(refinedText)
    }

    /** The Replace button: when enabled it confirms exactly the text on show; when disabled the
        click does nothing. */
    method Replace() returns (confirmed: Option<string>)
      ensures confirmed.Some? <==> ReplaceEnabled()
      ensures confirmed.Some? ==> confirmed.value == refinedText && Shown() == Preview(confirmed.value)
    {
      confirmed := if ReplaceEnabled() then Some(refinedText) else None;
    }

    /** The Cancel button only asks to close: it confirms nothing, whatever the state. */
    method Cancel() returns (confirmed: Option<string>, closeRequested: bool)
      ensures confirmed == None && closeRequested
    {
      confirmed := None;
      closeRequested := true;
    }
  }

  /** One whole refine: open, every streamed snapshot in turn, then the settlement. While the
      snapshots arrive the last one is on show; at the end a result is on show and can be
      confirmed, and a failure shows its message with Replace disabled. */
  method Run(dialog: RefineDialog, snapshots: seq<string>, outcome: Settlement)
    modifies dialog
    ensures dialog.Valid() && !dialog.isLoading
    ensures outcome.Resolved? ==> dialog.ReplaceEnabled() && dialog.Shown() == Preview(outcome.finalText)
    ensures outcome.Rejected? ==> !dialog.ReplaceEnabled() && dialog.Shown() == ErrorShown(ErrorText(outcome.message))
  {
    dialog.Open();
    var i := 0;
    while i < |snapshots|
      invariant 0 <= i <= |snapshots|
      invariant dialog.Valid() && dialog.error == None
      invariant i > 0 ==> !dialog.isLoading && dialog.refinedText == snapshots[i - 1]
      invariant i == 0 ==> dialog.isLoading && dialog.refinedText == ""
    {
      dialog.Chunk(snapshots[i]);
      i := i + 1;
    }
    dialog.Settle(outcome);
  }
}

=== FILE: sidebar.dfy ===
/** The thumbnail list (components/Sidebar.tsx): the drag state that decides when a reorder is
    issued, and the select, delete and add dispatch. */
module Sidebar {
  import opened Wrappers

  /** What the sidebar asks the editor to do. */
  datatype Command = SelectSlide(index: nat) | DeleteSlide(index: nat) | ReorderSlides(dragIndex: nat, dropIndex: nat) | AddSlide

  /** The commands a drop on `dropIndex` issues while `dragged` is being dragged: none without a
      drag or onto the dragged thumbnail itself, otherwise exactly one reorder. */
  function DropCommands(dragged: Option<nat>, dropIndex: nat): (cs: seq<Command>)
    ensures cs == [] <==> (dragged.None? || dragged.value == dropIndex)
    ensures cs != [] ==> cs == [ReorderSlides(dragged.value, dropIndex)]
    ensures forall k :: 0 <= k < |cs| ==> cs[k].ReorderSlides? && cs[k].dragIndex != cs[k].dropIndex
  {
    match dragged
    case None => []
    case Some(d) => if d == dropIndex then [] else [ReorderSlides(d, dropIndex)]
  }

  class DragGate {
    var draggedIndex: Option<nat>

    constructor ()
      ensures draggedIndex == None
    {
      draggedIndex := None;
    }

    /** `handleDragStart`: remembers the thumbnail being dragged. */
    method DragStart(index: nat)
      modifies this
      ensures draggedIndex == Some(index)
    {
      draggedIndex := Some(index);
    }

    /** `handleDrop`: a drop that issues a reorder also ends the drag; one that issues nothing
        leaves the drag as it was. */
    method Drop(dropIndex: nat) returns (commands: seq<Command>)
      modifies this
      ensures commands == DropCommands(old(draggedIndex), dropIndex)
      ensures commands == [] ==> draggedIndex == old(draggedIndex)
      ensures commands != [] ==> draggedIndex == None
    {
      if draggedIndex.None? || draggedIndex.value == dropIndex {
        return [];
      }
      commands := [ReorderSlides(draggedIndex.value, dropIndex)];
      draggedIndex := None;
    }

    /** The drag end handler: whatever happened, no drag is in progress afterwards. */
    method DragEnd()
      modifies this
      ensures draggedIndex == None
    {
      draggedIndex := None;
    }
  }

  /** A click on a thumbnail selects it. */
  function Click(index: nat): (cs: seq<Command>)
    ensures cs == [SelectSlide(index)]
  {
    [SelectSlide(index)]
  }

  /** The delete button stops the click from reaching the thumbnail: it deletes and does not
      select. */
  function DeleteClick(index: nat): (cs: seq<Command>)
    ensures cs == [DeleteSlide(index)]
    ensures forall k :: 0 <= k < |cs| ==> !cs[k].SelectSlide?
  {
    [DeleteSlide(index)]
  }

  /** A drag from one thumbnail onto another issues exactly that reorder and ends the drag;
      dropping a second time without a new drag issues nothing. */
  method DragOntoAnother(from: nat, to: nat)
    requires from != to
  {
    var gate := new DragGate();
    gate.DragStart(from);
    var first := gate.Drop(to);
    assert first == [ReorderSlides(from, to)] && gate.draggedIndex == None;
    var second := gate.Drop(from);
    assert second == [];
  }
}

=== FILE: slide_preview.dfy ===
/** The slide canvas (components/SlidePreview.tsx): which fields each layout shows, the two-column
    split and its index arithmetic, and the edits its handlers hand to `onUpdate` as patches. */
module SlidePreview {
  import opened Wrappers
  import opened Types
  import opened Edits

  const NEW_BULLET: string := "New bullet point."

  /** `handleTitleChange`: only the title changes. */
  function TitleChange(s: Slide, newTitle: string): (p: SlidePatch)
    ensures Merge(s, p) == s.(title := newTitle)
  {
    SlidePatch(title := Some(newTitle))
  }

  /** `handleContentChange`: the entry at `contentIndex` takes the new text; the other entries,
      the number of entries and every other field stay. */
  function ContentChange(s: Slide, contentIndex: int, newText: string): (p: SlidePatch)
    requires contentIndex < |s.content|
    ensures var r := Merge(s, p);
      r == s.(content := r.content) && |r.content| == |s.content| &&
      forall k :: 0 <= k < |s.content| ==> r.content[k] == (if k == contentIndex then newText else s.content[k])
  {
    SlidePatch(content := Some(AssignAt(s.content, contentIndex, newText)))
  }

  /** `handleContentAdd`: the default bullet is appended after every existing entry. */
  function ContentAdd(s: Slide): (p: SlidePatch)
    ensures var r := Merge(s, p);
      r == s.(content := r.content) && |r.content| == |s.content| + 1 &&
      r.content[..|s.content|] == s.content && r.content[|s.content|] == NEW_BULLET
  {
    var c := s.content + [NEW_BULLET];
    assert c[..|s.content|] == s.content;
    SlidePatch(content := Some(c))
  }

  /** `handleContentDelete`: an index in range removes exactly that entry, keeping the others in
      order; any other index leaves the content as it was. */
  function ContentDelete(s: Slide, indexToDelete: int): (p: SlidePatch)
    ensures var r := Merge(s, p);
      r == s.(content := r.content) &&
      (0 <= indexToDelete < |s.content| ==>
        r.content == s.content[..indexToDelete] + s.content[indexToDelete + 1..]) &&
      (!(0 <= indexToDelete < |s.content|) ==> r.content == s.content)
  {
    RemoveAtSplice(s.content, indexToDelete);
    SlidePatch(content := Some(RemoveAt(s.content, indexToDelete)))
  }

  /** The image's remove button: only the image reference becomes absent. */
  function RemoveImage(s: Slide): (p: SlidePatch)
    ensures Merge(s, p) == s.(imageUrl := None)
  {
    SlidePatch(imageUrl := Some(None))
  }

  /** `Math.ceil(n / 2)`: the split point of the two columns. */
  function MiddleIndex(n: nat): (m: nat)
    ensures 2 * m == n || 2 * m == n + 1
  {
    (n + 1) / 2
  }

  /** The TWO_COLUMN split: the left column is the first ceil(n/2) entries and the right column
      the rest, so together they are the content, and the left one is never shorter nor longer
      by more than one. */
  function Columns(content: seq<string>): (cols: (seq<string>, seq<string>))
    ensures cols.0 + cols.1 == content
    ensures |cols.0| == MiddleIndex(|content|)
    ensures |cols.0| == |cols.1| || |cols.0| == |cols.1| + 1
  {
    var m := MiddleIndex(|content|);
    assert content[..m] + content[m..] == content;
    (content[..m], content[m..])
  }

  datatype Column = Left | Right

  /** A column-local position as an index into the flat content list. */
  function AbsoluteIndex(col: Column, local: nat, n: nat): (r: nat)
    ensures col == Left && local < MiddleIndex(n) ==> r < MiddleIndex(n)
    ensures col == Right && local < n - MiddleIndex(n) ==> MiddleIndex(n) <= r < n
  {
    match col
    case Left => local
    case Right => MiddleIndex(n) + local
  }

  /** Each column entry is the content entry at its absolute index, and distinct column positions
      name distinct content entries. */
  lemma AbsoluteIndexSound(content: seq<string>, col: Column, local: nat)
    requires local < |if col == Left then Columns(content).0 else Columns(content).1|
    ensures AbsoluteIndex(col, local, |content|) < |content|
    ensures content[AbsoluteIndex(col, local, |content|)] ==
            (if col == Left then Columns(content).0 else Columns(content).1)[local]
  {
    var (l, r) := Columns(content);
    assert content == l + r;
    if col == Left {
      assert content[local] == (l + r)[local] == l[local];
    } else {
      assert content[|l| + local] == (l + r)[|l| + local] == r[local];
    }
  }

  /** The two columns never name the same content entry. */
  lemma AbsoluteIndexInjective(n: nat, c1: Column, i1: nat, c2: Column, i2: nat)
    requires i1 < (if c1 == Left then MiddleIndex(n) else n - MiddleIndex(n))
    requires i2 < (if c2 == Left then MiddleIndex(n) else n - MiddleIndex(n))
    requires AbsoluteIndex(c1, i1, n) == AbsoluteIndex(c2, i2, n)
    ensures c1 == c2 && i1 == i2
  {
  }

  /** What an editable field writes to. */
  datatype Target = TitleText | Bullet(index: nat)

  /** An editable field on the canvas: where its edits go, the text it shows, and whether it
      offers a delete (backspace on empty text and the delete button). */
  datatype Field = Field(target: Target, value: string, deletable: bool)

  /** `slide.content[0] && ...`: the subtitle is shown only when it exists and is non-empty. */
  predicate HasSubtitle(s: Slide) {
    |s.content| > 0 && s.content[0] != ""
  }

  /** `!!slide.imageUrl` */
  predicate HasImage(s: Slide) {
    s.imageUrl.Some? && s.imageUrl.value != ""
  }

  function TitleField(s: Slide): Field {
    Field(TitleText, s.title, false)
  }

  /** A bulleted list whose k-th item edits content entry `offset + k`. */
  function BulletFields(items: seq<string>, offset: nat): (fs: seq<Field>)
    ensures |fs| == |items|
    ensures forall k :: 0 <= k < |items| ==> fs[k] == Field(Bullet(offset + k), items[k], true)
  {
    seq(|items|, k requires 0 <= k < |items| => Field(Bullet(offset + k), items[k], true))
  }

  /** The fields `renderLayoutContent` draws, in order, for each layout; an unrecognised layout
      falls to the TITLE_CONTENT case. */
  function LayoutFields(s: Slide): (fs: seq<Field>)
    ensures s.layout != Blank || s.title != "" ==> |fs| >= 1 && fs[0] == TitleField(s)
    ensures s.layout == Blank && s.title == "" ==> fs == []
  {
    match s.layout
    case TitleSlide =>
      [TitleField(s)] + (if HasSubtitle(s) then [Field(Bullet(0), s.content[0], false)] else [])
    case SectionHeader =>
      [TitleField(s)] + (if HasSubtitle(s) then [Field(Bullet(0), s.content[0], false)] else [])
    case TwoColumn =>
      var (left, right) := Columns(s.content);
      [TitleField(s)] + BulletFields(left, 0) + BulletFields(right, MiddleIndex(|s.content|))
    case Blank =>
      if s.title != "" then [TitleField(s)] else []
    case _ =>
      [TitleField(s)] + BulletFields(s.content, 0)
  }

  /** The stored text a target designates, if it exists. */
  function Stored(s: Slide, t: Target): Option<string> {
    match t
    case TitleText => Some(s.title)
    case Bullet(i) => if i < |s.content| then Some(s.content[i]) else None
  }

  /** Two bulleted columns list the same fields, in the same order, as one list of the whole
      content: the right column's local positions land on the absolute indices after the split. */
  lemma {:induction false} ColumnsAsOneList(content: seq<string>)
    ensures var (l, r) := Columns(content);
      BulletFields(l, 0) + BulletFields(r, MiddleIndex(|content|)) == BulletFields(content, 0)
  {
    var (l, r) := Columns(content);
    var a, b := BulletFields(l, 0) + BulletFields(r, |l|), BulletFields(content, 0);
    assert |a| == |b|;
    forall k | 0 <= k < |a| ensures a[k] == b[k] {
      if k < |l| {
        assert a[k] == BulletFields(l, 0)[k];
        assert content[k] == (l + r)[k] == l[k];
      } else {
        assert a[k] == BulletFields(r, |l|)[k - |l|];
        assert content[k] == (l + r)[k] == r[k - |l|];
      }
    }
  }

  /** The two-column layout offers exactly the fields of the flat bullet layout: every entry
      once, in order, each writing to its own absolute index. */
  lemma TwoColumnSameFieldsAsFlat(s: Slide)
    requires s.layout == TwoColumn
    ensures LayoutFields(s) == LayoutFields(s.(layout := TitleContent))
  {
    ColumnsAsOneList(s.content);
  }

  /** Every field shows the stored text its edits write to. */
  lemma FieldsShowStoredText(s: Slide)
    ensures forall f :: f in LayoutFields(s) ==> Stored(s, f.target) == Some(f.value)
  {
    if s.layout == TwoColumn {
      TwoColumnSameFieldsAsFlat(s);
      assert LayoutFields(s) == [TitleField(s)] + BulletFields(s.content, 0);
    }
  }

  /** TITLE_SLIDE and SECTION_HEADER show the title and, only when non-empty, `content[0]`;
      BLANK shows only the title and only when it is non-empty. */
  lemma TitleLayoutsShowFirstEntryOnly(s: Slide)
    ensures (s.layout == TitleSlide || s.layout == SectionHeader) ==>
      (forall f :: f in LayoutFields(s) ==> f.target == TitleText || f.target == Bullet(0)) &&
      (Field(Bullet(0), if |s.content| > 0 then s.content[0] else "", false) in LayoutFields(s) <==> HasSubtitle(s))
    ensures s.layout == Blank ==>
      LayoutFields(s) == (if s.title == "" then [] else [TitleField(s)])
  {
    if s.layout == TitleSlide || s.layout == SectionHeader {
      assert LayoutFields(s)[0] == TitleField(s);
    }
  }

  /** The patch an edit of a field sends to `onUpdate`. */
  function EditPatch(s: Slide, t: Target, newText: string): (p: SlidePatch)
    requires Stored(s, t).Some?
    ensures p.id.None? && p.layout.None? && p.imageUrl.None? && p.transition.None?
    ensures t == TitleText ==> p == SlidePatch(title := Some(newText))
    ensures t.Bullet? ==> p.title.None? && p.content.Some? && |p.content.value| == |s.content|
  {
    match t
    case TitleText => TitleChange(s, newText)
    case Bullet(i) => ContentChange(s, i, newText)
  }

  /** Editing a field changes the text at its own target and no other stored text. */
  lemma EditChangesOnlyItsTarget(s: Slide, f: Field, newText: string)
    requires f in LayoutFields(s)
    ensures Stored(s, f.target).Some?
    ensures Stored(Merge(s, EditPatch(s, f.target, newText)), f.target) == Some(newText)
    ensures forall t :: t != f.target ==> Stored(Merge(s, EditPatch(s, f.target, newText)), t) == Stored(s, t)
  {
    FieldsShowStoredText(s);
  }

  /** The request a field's refine button reports: a title always reports content index -1. */
  function RefineFor(slideIndex: int, f: Field): (req: RefineRequest)
    ensures f.target == TitleText ==> req.contentIndex == -1
    ensures f.target.Bullet? ==> req.contentIndex == f.target.index
    ensures req.slideIndex == slideIndex && req.text == f.value
  {
    RefineRequest(slideIndex, if f.target.Bullet? then f.target.index else -1, f.value)
  }

  /** What the canvas offers to click or type into when it is not read-only. */
  datatype Control =
    | EditField(target: Target)
    | RefineField(target: Target)
    | DeleteBullet(index: nat)
    | AddBullet
    | RemoveImageButton
    | AddImageButton

  /** The layouts that draw an "add bullet point" button. */
  predicate ListsBullets(l: SlideLayout) {
    l == TwoColumn || !(l == TitleSlide || l == SectionHeader || l == Blank)
  }

  /** The edit, refine and delete controls a list of fields draws: an edit and a refine control
      per field, and a delete control per deletable bullet. */
  function FieldControls(fields: seq<Field>): (cs: set<Control>)
    ensures forall t :: EditField(t) in cs <==> exists f :: f in fields && f.target == t
    ensures forall t :: RefineField(t) in cs <==> exists f :: f in fields && f.target == t
    ensures forall i :: DeleteBullet(i) in cs <==> exists f :: f in fields && f.deletable && f.target == Bullet(i)
    ensures AddBullet !in cs && RemoveImageButton !in cs && AddImageButton !in cs
  {
    (set f | f in fields :: EditField(f.target)) +
    (set f | f in fields :: RefineField(f.target)) +
    (set f | f in fields && f.deletable && f.target.Bullet? :: DeleteBullet(f.target.index))
  }

  /** The controls the canvas draws. It is read-only exactly while exporting or presenting, and
      then it draws none; otherwise it offers remove-image exactly when the slide has an image
      (add-image otherwise), an edit and a refine control per field, and a delete per deletable bullet. */
  function Controls(s: Slide, isExporting: bool, isPresenting: bool): (cs: set<Control>)
    ensures cs == {} <==> (isExporting || isPresenting)
    ensures !(isExporting || isPresenting) ==> (AddImageButton in cs <==> RemoveImageButton !in cs)
    ensures AddBullet in cs <==> !(isExporting || isPresenting) && ListsBullets(s.layout)
    ensures !(isExporting || isPresenting) ==> (RemoveImageButton in cs <==> HasImage(s))
    ensures forall t :: EditField(t) in cs <==>
      !(isExporting || isPresenting) && exists f :: f in LayoutFields(s) && f.target == t
    ensures forall t :: RefineField(t) in cs <==>
      !(isExporting || isPresenting) && exists f :: f in LayoutFields(s) && f.target == t
    ensures forall i :: DeleteBullet(i) in cs <==>
      !(isExporting || isPresenting) && exists f :: f in LayoutFields(s) && f.deletable && f.target == Bullet(i)
  {
    var isReadOnly := isExporting || isPresenting;
    if isReadOnly then {}
    else
      var image := if HasImage(s) then RemoveImageButton else AddImageButton;
      var others := (if ListsBullets(s.layout) then {AddBullet} else {}) + {image};
      FieldControls(LayoutFields(s)) + others
  }
}

=== FILE: text.dfy ===
/** The JavaScript string operations the core relies on: number-to-string in template literals,
    `trim`, `includes`, `Array.join`, `replace(/ /g, ...)`, `toLowerCase` and `endsWith`. */
module Text {

  predicate IsDigit(c: char) {
    '0' <= c <= '9'
  }

  predicate AllDigits(s: string) {
    forall k :: 0 <= k < |s| ==> IsDigit(s[k])
  }

  function DigitChar(d: nat): (c: char)
    requires d < 10
    ensures IsDigit(c)
  {
    "0123456789"[d]
  }

  /** The decimal rendering of a natural number, as a template literal produces it. */
  function NatToString(n: nat): (s: string)
    ensures |s| > 0 && AllDigits(s)
    decreases n
  {
    if n < 10 then [DigitChar(n)] else NatToString(n / 10) + [DigitChar(n % 10)]
  }

  lemma DigitCharInjective(a: nat, b: nat)
    requires a < 10 && b < 10 && DigitChar(a) == DigitChar(b)
    ensures a == b
  {
  }

  /** Numbers from ten on take at least two digits. */
  lemma NatToStringLength(n: nat)
    ensures n < 10 <==> |NatToString(n)| == 1
  {
    if n >= 10 {
      assert |NatToString(n / 10)| > 0;
    }
  }

  /** Distinct numbers render as distinct strings. */
  lemma {:induction false} NatToStringInjective(a: nat, b: nat)
    requires NatToString(a) == NatToString(b)
    ensures a == b
    decreases a
  {
    NatToStringLength(a);
    NatToStringLength(b);
    var sa, sb := NatToString(a), NatToString(b);
    if a < 10 {
      DigitCharInjective(a, b);
    } else {
      assert sa[..|sa| - 1] == NatToString(a / 10);
      assert sb[..|sb| - 1] == NatToString(b / 10);
      NatToStringInjective(a / 10, b / 10);
      assert sa[|sa| - 1] == DigitChar(a % 10);
      assert sb[|sb| - 1] == DigitChar(b % 10);
      DigitCharInjective(a % 10, b % 10);
    }
  }

  /** The characters `String.prototype.trim` removes: white space and line terminators. */
  predicate IsJsWhitespace(c: char) {
    ('\U{9}' <= c <= '\U{D}') || c == ' ' || c == '\U{A0}' || c == '\U{1680}' ||
    ('\U{2000}' <= c <= '\U{200A}') || c == '\U{2028}' || c == '\U{2029}' ||
    c == '\U{202F}' || c == '\U{205F}' || c == '\U{3000}' || c == '\U{FEFF}'
  }

  function TrimStart(s: string): (r: string)
    ensures |r| <= |s| && r == s[|s| - |r|..]
    ensures forall k :: 0 <= k < |s| - |r| ==> IsJsWhitespace(s[k])
    ensures r == [] || !IsJsWhitespace(r[0])
  {
    if s != [] && IsJsWhitespace(s[0]) then TrimStart(s[1..]) else s
  }

  function TrimEnd(s: string): (r: string)
    ensures |r| <= |s| && r == s[..|r|]
    ensures forall k :: |r| <= k < |s| ==> IsJsWhitespace(s[k])
    ensures r == [] || !IsJsWhitespace(r[|r| - 1])
  {
    if s != [] && IsJsWhitespace(s[|s| - 1]) then TrimEnd(s[..|s| - 1]) else s
  }

  /** `s.trim()`: the longest middle part of `s` that neither starts nor ends with white space;
      everything cut off is white space. */
  function Trim(s: string): (r: string)
    ensures exists i, j :: 0 <= i <= j <= |s| && r == s[i..j] &&
              (forall k :: 0 <= k < i ==> IsJsWhitespace(s[k])) &&
              (forall k :: j <= k < |s| ==> IsJsWhitespace(s[k]))
    ensures r == [] || (!IsJsWhitespace(r[0]) && !IsJsWhitespace(r[|r| - 1]))
  {
    var t := TrimStart(s);
    var r := TrimEnd(t);
    assert r == s[|s| - |t|..|s| - |t| + |r|];
    r
  }

  /** Trimming twice trims nothing more. */
  lemma TrimIdempotent(s: string)
    ensures Trim(Trim(s)) == Trim(s)
  {
    var r := Trim(s);
    if r != [] {
      assert TrimStart(r) == r;
      assert TrimEnd(r) == r;
    }
  }

  predicate OccursAt(s: string, sub: string, i: nat) {
    i + |sub| <= |s| && s[i..i + |sub|] == sub
  }

  /** `s.includes(sub)` */
  predicate Contains(s: string, sub: string) {
    exists i: nat | i <= |s| :: OccursAt(s, sub, i)
  }

  /** A string without the first character of `sub` cannot contain `sub`. */
  lemma NotContainsWithoutFirst(s: string, sub: string)
    requires sub != [] && sub[0] !in s
    ensures !Contains(s, sub)
  {
    forall i: nat | i <= |s| ensures !OccursAt(s, sub, i) {
      if i + |sub| <= |s| {
        assert s[i..i + |sub|][0] == s[i];
      }
    }
  }

  lemma ContainsAt(s: string, sub: string, i: nat)
    requires OccursAt(s, sub, i)
    ensures Contains(s, sub)
  {
  }

  /** `items.join(sep)` */
  function Join(items: seq<string>, sep: string): (r: string)
    ensures items == [] ==> r == []
    ensures |items| == 1 ==> r == items[0]
  {
    if items == [] then []
    else if |items| == 1 then items[0]
    else items[0] + sep + Join(items[1..], sep)
  }

  /** Joining with a separator that holds no `c`, items that hold no `c` gives a string without `c`. */
  lemma {:induction false} JoinAvoids(items: seq<string>, sep: string, c: char)
    requires c !in sep
    requires forall k :: 0 <= k < |items| ==> c !in items[k]
    ensures c !in Join(items, sep)
  {
    if |items| > 1 {
      JoinAvoids(items[1..], sep, c);
      assert Join(items, sep) == items[0] + sep + Join(items[1..], sep);
    }
  }

  /** `s.replace(/ /g, '_')`: every ordinary space becomes an underscore. */
  function ReplaceSpaces(s: string): (r: string)
    ensures |r| == |s|
    ensures forall k :: 0 <= k < |s| ==> r[k] == (if s[k] == ' ' then '_' else s[k])
  {
    if s == [] then [] else [if s[0] == ' ' then '_' else s[0]] + ReplaceSpaces(s[1..])
  }

  function LowerChar(c: char): char {
    if 'A' <= c <= 'Z' then (c as int + 32) as char else c
  }

  /** `s.toLowerCase()` on the letters the file-name tests look at (see README). */
  function ToLowerCase(s: string): (r: string)
    ensures |r| == |s|
    ensures forall k :: 0 <= k < |s| ==> r[k] == LowerChar(s[k])
  {
    if s == [] then [] else [LowerChar(s[0])] + ToLowerCase(s[1..])
  }

  /** `s.endsWith(suffix)` */
  predicate EndsWith(s: string, suffix: string) {
    |suffix| <= |s| && s[|s| - |suffix|..] == suffix
  }
}

=== FILE: types.dfy ===
/** The entities of the presentation assistant (types.ts) and the two constant tables the core
    reads (TRANSITIONS and LLM_CONFIG in constants.ts). */
module Types {
  import opened Wrappers

  /** The application's top-level phase. */
  datatype AppState = Welcome | Parsing | GeneratingOutline | ReviewingOutline | SelectingTemplate | Editing

  /** The structural variant of a slide. The source types it as a closed union of five names, but
      the outline normaliser casts whatever string the model returned, so a sixth case keeps an
      unrecognised non-empty name as it arrived. */
  datatype SlideLayout =
    | TitleSlide
    | TitleContent
    | SectionHeader
    | TwoColumn
    | Blank
    | Unrecognized(name: string)

  /** The wire name of a layout. */
  function LayoutName(l: SlideLayout): string {
    match l
    case TitleSlide => "TITLE_SLIDE"
    case TitleContent => "TITLE_CONTENT"
    case SectionHeader => "SECTION_HEADER"
    case TwoColumn => "TWO_COLUMN"
    case Blank => "BLANK"
    case Unrecognized(name) => name
  }

  /** The five names of the closed union. */
  predicate IsKnownLayoutName(s: string) {
    s == "TITLE_SLIDE" || s == "TITLE_CONTENT" || s == "SECTION_HEADER" || s == "TWO_COLUMN" || s == "BLANK"
  }

  /** A layout value as the normaliser can produce it: an unrecognised name is never one of the five. */
  predicate WellFormedLayout(l: SlideLayout) {
    l.Unrecognized? ==> !IsKnownLayoutName(l.name)
  }

  /** Reads a wire name back into a layout (the `as SlideLayout` cast); unknown names are kept. */
  function ParseLayout(s: string): (l: SlideLayout)
    ensures LayoutName(l) == s
    ensures WellFormedLayout(l)
    ensures l.Unrecognized? <==> !IsKnownLayoutName(s)
  {
    if s == "TITLE_SLIDE" then TitleSlide
    else if s == "TITLE_CONTENT" then TitleContent
    else if s == "SECTION_HEADER" then SectionHeader
    else if s == "TWO_COLUMN" then TwoColumn
    else if s == "BLANK" then Blank
    else Unrecognized(s)
  }

  /** Naming a well-formed layout and reading the name back gives the layout again. */
  lemma ParseLayoutName(l: SlideLayout)
    requires WellFormedLayout(l)
    ensures ParseLayout(LayoutName(l)) == l
  {
    match l
    case Unrecognized(name) =>
      assert !IsKnownLayoutName(name);
    case _ =>
  }

  /** A visual transition; `NoTransition` is the explicit 'none' choice, distinct from an absent one. */
  datatype Transition = NoTransition | Fade | SlideIn | ZoomIn

  function TransitionId(t: Transition): string {
    match t
    case NoTransition => "none"
    case Fade => "fade"
    case SlideIn => "slide-in"
    case ZoomIn => "zoom-in"
  }

  /** One row of the TRANSITIONS table. */
  datatype TransitionInfo = TransitionInfo(id: Transition, name: string, className: string)

  const TRANSITIONS: seq<TransitionInfo> := [
    TransitionInfo(NoTransition, "None", ""),
    TransitionInfo(Fade, "Fade", "animate-fade-in"),
    TransitionInfo(SlideIn, "Slide In", "animate-slide-in-right"),
    TransitionInfo(ZoomIn, "Zoom In", "animate-zoom-in")
  ]

  /** `table.find(t => t.id === transition)`: the first row whose id is the given transition;
      an absent transition matches no row. */
  function FindTransition(table: seq<TransitionInfo>, t: Option<Transition>): (r: Option<TransitionInfo>)
    ensures r.Some? ==> r.value in table && t == Some(r.value.id)
    ensures r.None? ==> forall k :: 0 <= k < |table| ==> t != Some(table[k].id)
  {
    if table == [] then None
    else if t == Some(table[0].id) then Some(table[0])
    else FindTransition(table[1..], t)
  }

  /** The row of TRANSITIONS that lists a transition. */
  function TransitionRow(t: Transition): (k: nat)
    ensures k < |TRANSITIONS| && TRANSITIONS[k].id == t
  {
    match t
    case NoTransition => 0
    case Fade => 1
    case SlideIn => 2
    case ZoomIn => 3
  }

  /** The animation class of a slide's transition: the row's className, or '' when no row matches. */
  function TransitionClass(t: Option<Transition>): string {
    match FindTransition(TRANSITIONS, t)
    case Some(info) => info.className
    case None => ""
  }

  /** Every transition has exactly its own row's class; an absent transition has none. */
  lemma TransitionClassTable()
    ensures TransitionClass(None) == ""
    ensures forall k :: 0 <= k < |TRANSITIONS| ==> TransitionClass(Some(TRANSITIONS[k].id)) == TRANSITIONS[k].className
  {
    assert TRANSITIONS[0].id == NoTransition;
    assert TRANSITIONS[1].id == Fade;
    assert TRANSITIONS[2].id == SlideIn;
    assert TRANSITIONS[3].id == ZoomIn;
  }

  /** A single deck page. */
  datatype Slide = Slide(
    id: string,
    title: string,
    content: seq<string>,
    layout: SlideLayout,
    imageUrl: Option<string>,
    transition: Option<Transition>)

  /** The style bundle chosen for a deck; its class strings are styling and are not modelled. */
  datatype PresentationTemplate = PresentationTemplate(id: string, name: string)

  /** The deck. */
  datatype Presentation = Presentation(title: string, slides: seq<Slide>, template: PresentationTemplate)

  /** A `Partial<Slide>`: `None` leaves a field alone; for the optional fields, `Some(None)` writes
      `undefined` (removes the image or the transition). */
  datatype SlidePatch = SlidePatch(
    id: Option<string> := None,
    title: Option<string> := None,
    content: Option<seq<string>> := None,
    layout: Option<SlideLayout> := None,
    imageUrl: Option<Option<string>> := None,
    transition: Option<Option<Transition>> := None)

  function PatchValue<T>(supplied: Option<T>, current: T): T {
    match supplied
    case Some(v) => v
    case None => current
  }

  /** `{ ...slide, ...patch }`: every field the patch supplies is overwritten, every other field
      keeps its value. */
  function Merge(s: Slide, p: SlidePatch): (r: Slide)
    ensures p.id.None? ==> r.id == s.id
    ensures p.title.None? ==> r.title == s.title
    ensures p.content.None? ==> r.content == s.content
    ensures p.layout.None? ==> r.layout == s.layout
    ensures p.imageUrl.None? ==> r.imageUrl == s.imageUrl
    ensures p.transition.None? ==> r.transition == s.transition
    ensures p.id.Some? ==> r.id == p.id.value
    ensures p.title.Some? ==> r.title == p.title.value
    ensures p.content.Some? ==> r.content == p.content.value
    ensures p.layout.Some? ==> r.layout == p.layout.value
    ensures p.imageUrl.Some? ==> r.imageUrl == p.imageUrl.value
    ensures p.transition.Some? ==> r.transition == p.transition.value
  {
    Slide(
      PatchValue(p.id, s.id),
      PatchValue(p.title, s.title),
      PatchValue(p.content, s.content),
      PatchValue(p.layout, s.layout),
      PatchValue(p.imageUrl, s.imageUrl),
      PatchValue(p.transition, s.transition))
  }

  /** What a refine button reports: the slide, the content entry (-1 for the title) and its text. */
  datatype RefineRequest = RefineRequest(slideIndex: int, contentIndex: int, text: string)

  /** The LLM vendors. */
  datatype LlmProvider = Gemini | OpenAI | Anthropic | Grok

  /** The provider's key in LLM_CONFIG, in the key map and in persisted settings. */
  function ProviderId(p: LlmProvider): string {
    match p
    case Gemini => "gemini"
    case OpenAI => "openai"
    case Anthropic => "anthropic"
    case Grok => "grok"
  }

  /** Looks a stored provider string up among the keys of LLM_CONFIG. */
  function ParseProvider(s: string): (r: Option<LlmProvider>)
    ensures r.Some? ==> ProviderId(r.value) == s
    ensures r.None? ==> forall p: LlmProvider :: ProviderId(p) != s
  {
    if s == "gemini" then Some(Gemini)
    else if s == "openai" then Some(OpenAI)
    else if s == "anthropic" then Some(Anthropic)
    else if s == "grok" then Some(Grok)
    else None
  }

  /** LLM_CONFIG[provider].name */
  function ProviderName(p: LlmProvider): string {
    match p
    case Gemini => "Gemini"
    case OpenAI => "OpenAI"
    case Anthropic => "Anthropic"
    case Grok => "Grok"
  }

  /** LLM_CONFIG[provider].models: every provider offers at least one model. */
  function Models(p: LlmProvider): (r: seq<string>)
    ensures |r| > 0
  {
    match p
    case Gemini => ["gemini-2.5-flash", "gemini-2.5-pro"]
    case OpenAI => ["GPT-4o", "GPT-4o mini", "GPT-5"]
    case Anthropic => ["Claude 3.7 Sonnet", "Claude 4 Sonnet"]
    case Grok => ["Grok 3", "Grok 4"]
  }

  /** The configuration handed to every AI call. */
  datatype AiConfig = AiConfig(provider: LlmProvider, model: string, apiKey: Option<string>)

  /** The interface language. */
  datatype Language = EN | ZH_TW

  /** STRINGS[language].apiKeyMissing */
  function ApiKeyMissingText(lang: Language): string {
    match lang
    case EN => "Please enter a valid API Key above to begin."
    case ZH_TW => "請在上方輸入有效的 API 金鑰以開始。"
  }
}

=== FILE: wrappers.dfy ===
/** Optional values and success/failure results, as the TypeScript source expresses them
    with `undefined`/`null` and with thrown `Error`s. */
module Wrappers {

  /** An optional value: `undefined` or `null` in the source is `None`. */
  datatype Option<+T> = None | Some(value: T)

  /** The outcome of an operation that can throw: `Failure` carries the thrown error's message. */
  datatype Result<+R, +E> = Success(value: R) | Failure(error: E)
}
